=== FILE: README.md ===
# AR measure app — a Dafny model of its measuring core

The app measures real-world distances with the phone camera. It has two halves:

- **Native engine** (`ARMeasureModule.kt`). It keeps a list of tapped 3-D points. It turns a screen tap into a world point: first by hit test, then from the depth image, then from a fixed-depth ray. It reports the corrected length of the newest segment, with an accuracy label and a confidence score.
- **React-Native scene** (`ARMeasureScene.tsx`). It runs its own small drawing session with its own correction table and accuracy classifier. Vector helpers live in `measurementUtils.ts`.

Two sensor bridges forward accelerometer, gyroscope and magnetometer readings from Kotlin to JavaScript.

The model is functional:
- Each handler is a pure state transition over an immutable record.
- Each numeric rule is a pure function over `real`.
- The platform (ARCore frames, the sensor manager, promises, the event emitter) becomes parameters.

Modules:

| module | file | models |
|---|---|---|
| `Results` | results.dfy | `Option` |
| `Vectors` | vectors.dfy | 3-vectors, dot and cross product, Euclidean distance |
| `Polylines` | polylines.dfy | pairs of adjacent points (history entries, rendered lines) |
| `MeasurementUtils` | measurement_utils.dfy | `measurementUtils.ts` |
| `SortedSamples` | sorted_samples.dfy | sorting and the `sorted[size/2]` median |
| `DepthSampler` | depth_sampler.dfy | depth pixel, 5×5 clamped neighbourhood, valid-depth filter |
| `SurfaceLocator` | surface_locator.dfy | `getWorldPosition` and its three strategies |
| `NativeCorrection` | native_correction.dfy | `applyProfessionalCorrections`, `getAccuracyEstimate`, `calculateConfidence` |
| `MeasureModule` | measure_module.dfy | `measureDistance`, `clearMeasurements`, `getMeasurementHistory` |
| `MeasureScene` | measure_scene.dfy | the scene's handlers, correction table and accuracy classifier |
| `SensorNative` | sensor_native.dfy | `SensorFusionModule.kt` |
| `SensorBridge` | sensor_bridge.dfy | `SensorFusionModule.ts` |

Modelling choices:
- **Square root.** `sqrt` is a parameter constrained by `Vectors.IsSqrt`: the result is non-negative and squares back to the argument. It is never assumed as an axiom.
- **Camera pose.** The pose matrix is an opaque function of a homogeneous point.
- **Hit test.** `frame.hitTest` is an opaque function returning a sequence of hits. `isPoseInPolygon` is recorded on each plane hit.
- **Depth image.** It is a grid of integer millimetres, so the metre range (0.1, 10.0) becomes 100 < mm < 10000.
- **NaN.** Where the JavaScript code meets NaN, the model says what each comparison does. Between two equal points, 0/0 is NaN and makes every comparison false (`MeasureScene.Ratio`). The sanitiser keeps NaN, because NaN is of type number (`SensorBridge.JsNumber`).

## Model

| member | source | states |
|---|---|---|
| Vectors.Distance | src/utils/measurementUtils.ts:9-14 | the distance is non-negative, its square is the squared length of the difference, and it is zero exactly when the points coincide |
| Vectors.DistanceSymmetric | src/utils/measurementUtils.ts:9-14 | the distance from a to b equals the distance from b to a |
| Vectors.DistanceToSelf | src/utils/measurementUtils.ts:9-14 | corollary: a point is at distance zero from itself |
| Vectors.CrossOrthogonal | src/utils/measurementUtils.ts:80-83 | the cross product is orthogonal to both of its factors |
| Vectors.SqNormNonNegative | src/utils/measurementUtils.ts:86-87 | a squared length is never negative and is zero only for the zero vector, so `length === 0` means a zero cross product |
| MeasurementUtils.CalculateArea | src/utils/measurementUtils.ts:16-29 | the loop computes the shoelace area on the x/z plane (reference `Area`); the area is 0 for fewer than 3 points and never negative |
| MeasurementUtils.ShoelaceSumIgnoresHeight | src/utils/measurementUtils.ts:23-27 | partial shoelace sums of two polygons with the same x/z footprint agree |
| MeasurementUtils.AreaIgnoresHeight | src/utils/measurementUtils.ts:23-27 | polygons with the same x/z coordinates have the same area, whatever their heights |
| MeasurementUtils.AreaIgnoresPointHeight | src/utils/measurementUtils.ts:23-27 | changing one point's y never changes the area |
| MeasurementUtils.SumWithin | src/utils/measurementUtils.ts:34-37 | the coordinate-wise sum of n points inside a box lies inside the box scaled by n |
| MeasurementUtils.GetStablePosition | src/utils/measurementUtils.ts:32-44 | the per-axis mean of a non-empty list; no contract of its own, its properties are `MeasurementUtils.StablePositionWithin` (the mean stays inside any box holding every input) and `MeasurementUtils.StablePositionOfCopies` (a repeated point averages to itself) |
| MeasurementUtils.StablePositionWithin | src/utils/measurementUtils.ts:32-44 | each coordinate of the average lies between per-axis bounds of the inputs |
| MeasurementUtils.StablePositionOfCopies | src/utils/measurementUtils.ts:32-44 | averaging n copies of p gives p |
| MeasurementUtils.IsPointOnPlane | src/utils/measurementUtils.ts:46-65 | the distance test against the plane through the given point; the source's default threshold 0.01 is an explicit parameter, and its properties are `MeasurementUtils.PlanePointIsOnPlane` and `MeasurementUtils.ProjectedPointIsOnPlane`, which hold for every positive threshold and so for 0.01 |
| MeasurementUtils.PlanePointIsOnPlane | src/utils/measurementUtils.ts:46-65 | the plane's own point is on the plane for every positive threshold |
| MeasurementUtils.CalculatePlaneNormal | src/utils/measurementUtils.ts:68-90 | null exactly for fewer than 3 points or a zero cross product; otherwise a unit vector orthogonal to both edge vectors |
| MeasurementUtils.ProjectPointOntoPlane | src/utils/measurementUtils.ts:92-115 | subtracts the offset's component along the normal, without normalising it; no contract of its own, its properties are `MeasurementUtils.OffsetAfterProjection`, `MeasurementUtils.ProjectionLiesOnPlane`, `MeasurementUtils.ProjectionFixesPlanePoints` and `MeasurementUtils.ProjectionIdempotent` |
| MeasurementUtils.OffsetAfterProjection | src/utils/measurementUtils.ts:92-115 | after projection, the offset from the plane point has dot product (1 - ‖n‖²)·d with the normal, where d is the original offset's dot product |
| MeasurementUtils.ProjectionLiesOnPlane | src/utils/measurementUtils.ts:92-115 | with a unit normal, the projected point's offset is orthogonal to the normal |
| MeasurementUtils.ProjectionFixesPlanePoints | src/utils/measurementUtils.ts:92-115 | a point already on the plane is left where it is |
| MeasurementUtils.ProjectionIdempotent | src/utils/measurementUtils.ts:92-115 | with a unit normal, projecting twice equals projecting once |
| MeasurementUtils.ProjectedPointIsOnPlane | src/utils/measurementUtils.ts:46-65 | a projected point passes `isPointOnPlane` for every positive threshold |
| SortedSamples.Insert | android/app/src/main/java/com/virostarterkit/ARMeasureModule.kt:277 | inserting into a sorted list gives a sorted list with the same elements plus the new one |
| SortedSamples.Sort | android/app/src/main/java/com/virostarterkit/ARMeasureModule.kt:277 | `sorted()` returns a sorted permutation of the samples |
| SortedSamples.CountsOfInsert | android/app/src/main/java/com/virostarterkit/ARMeasureModule.kt:277 | insertion adds one to the below/at-most counts exactly when the new value qualifies |
| SortedSamples.CountsOfSort | android/app/src/main/java/com/virostarterkit/ARMeasureModule.kt:277 | sorting changes no count of smaller or not-larger samples |
| SortedSamples.CountsAtIndex | android/app/src/main/java/com/virostarterkit/ARMeasureModule.kt:277 | in a sorted list at most k elements are below element k and at least k+1 are at most it |
| SortedSamples.NoneBelowMinimum | android/app/src/main/java/com/virostarterkit/ARMeasureModule.kt:277 | nothing is below a lower bound of all elements |
| SortedSamples.CountMonotone | android/app/src/main/java/com/virostarterkit/ARMeasureModule.kt:277 | for v < w, the elements at most v are fewer than or as many as those below w |
| SortedSamples.Median | android/app/src/main/java/com/virostarterkit/ARMeasureModule.kt:277 | `sorted[size/2]` is one of the samples, at most size/2 samples are strictly smaller, and more than size/2 are at most it |
| SortedSamples.MedianUnique | android/app/src/main/java/com/virostarterkit/ARMeasureModule.kt:277 | those two counting properties single out the median: any value having them is it |
| SortedSamples.MedianOfOdd | android/app/src/main/java/com/virostarterkit/ARMeasureModule.kt:277 | corollary: for an odd number of samples the chosen element is the middle one |
| DepthSampler.Clamp | android/app/src/main/java/com/virostarterkit/ARMeasureModule.kt:256-257 | `coerceIn` lands in [lo, hi] and leaves in-range values alone |
| DepthSampler.ScaleToDepthNonNegative | android/app/src/main/java/com/virostarterkit/ARMeasureModule.kt:244-245 | a non-negative tap maps to a non-negative depth coordinate |
| DepthSampler.DepthPixel | android/app/src/main/java/com/virostarterkit/ARMeasureModule.kt:244-249 | the mapped pixel is null exactly when it falls outside [0,w)×[0,h); otherwise it is the scaled tap and inside the image |
| DepthSampler.ScaleBelowSize | android/app/src/main/java/com/virostarterkit/ARMeasureModule.kt:244-245 | a coordinate strictly inside the view maps strictly inside the image |
| DepthSampler.TapInsideViewHasDepthPixel | android/app/src/main/java/com/virostarterkit/ARMeasureModule.kt:244-249 | a tap strictly inside the view always has a depth pixel in a non-empty image |
| DepthSampler.ValidDepthInMillimetres | android/app/src/main/java/com/virostarterkit/ARMeasureModule.kt:266-268 | 0.1 < mm/1000 < 10.0 exactly when 100 < mm < 10000 |
| DepthSampler.SampleX | android/app/src/main/java/com/virostarterkit/ARMeasureModule.kt:256 | every neighbourhood column is clamped into [0, w-1] |
| DepthSampler.SampleY | android/app/src/main/java/com/virostarterkit/ARMeasureModule.kt:257 | every neighbourhood row is clamped into [0, h-1] |
| DepthSampler.Neighbourhood | android/app/src/main/java/com/virostarterkit/ARMeasureModule.kt:252-258 | the neighbourhood has 5·5 = 25 readings |
| DepthSampler.KeepValid | android/app/src/main/java/com/virostarterkit/ARMeasureModule.kt:268-270 | only readings strictly inside (0.1, 10.0) m are kept, and every such reading is kept |
| DepthSampler.ValidSamples | android/app/src/main/java/com/virostarterkit/ARMeasureModule.kt:251-273 | at most 25 samples are collected |
| DepthSampler.IndexSplit | android/app/src/main/java/com/virostarterkit/ARMeasureModule.kt:254-255 | the flat index row·5+col splits back into its row and column |
| DepthSampler.NeighbourhoodAt | android/app/src/main/java/com/virostarterkit/ARMeasureModule.kt:254-258 | the reading at offset (dx, dy) is the neighbourhood entry at flat index (dy+2)·5 + (dx+2) |
| DepthSampler.KeepValidStep | android/app/src/main/java/com/virostarterkit/ARMeasureModule.kt:268-270 | filtering one more reading appends it exactly when it is plausible |
| DepthSampler.SampleRow | android/app/src/main/java/com/virostarterkit/ARMeasureModule.kt:255-272 | one pass of the inner loop reads five more pixels and extends the samples by exactly the plausible ones among them |
| DepthSampler.CollectSamples | android/app/src/main/java/com/virostarterkit/ARMeasureModule.kt:251-273 | the nested loops collect exactly the valid readings, in order, after 25 reads |
| DepthSampler.DepthAt | android/app/src/main/java/com/virostarterkit/ARMeasureModule.kt:251-277 | null exactly when no reading is valid; otherwise a valid reading of the neighbourhood with the median's counting properties over the valid samples |
| SurfaceLocator.FirstAcceptedIndex | android/app/src/main/java/com/virostarterkit/ARMeasureModule.kt:192-204 | the index found is accepted and every earlier hit is rejected |
| SurfaceLocator.BestHit | android/app/src/main/java/com/virostarterkit/ARMeasureModule.kt:192-204 | `firstOrNull` is null exactly when no hit is accepted, and otherwise it is the pose of the first accepted hit |
| SurfaceLocator.BackProject | android/app/src/main/java/com/virostarterkit/ARMeasureModule.kt:284-286 | the pinhole back-projection of a depth pixel; no contract of its own, its property is `SurfaceLocator.BackProjectOnRay` (depth d gives d times the depth-1 point on the pixel's ray) |
| SurfaceLocator.BackProjectOnRay | android/app/src/main/java/com/virostarterkit/ARMeasureModule.kt:284-286 | the back-projected camera point at depth d is d times the point at depth 1, so it lies on the tap's ray |
| SurfaceLocator.PositionFromDepth | android/app/src/main/java/com/virostarterkit/ARMeasureModule.kt:229-300 | a position exists exactly when the pixel maps inside the image and some neighbourhood reading is valid; it is then the camera transform of the back-projected median depth |
| SurfaceLocator.NdcX | android/app/src/main/java/com/virostarterkit/ARMeasureModule.kt:313 | the tap's normalised device x coordinate; no contract of its own, `SurfaceLocator.NdcRange` states its range and its left edge |
| SurfaceLocator.NdcY | android/app/src/main/java/com/virostarterkit/ARMeasureModule.kt:314 | the tap's normalised device y coordinate, flipped so that up is positive; no contract of its own, `SurfaceLocator.NdcRange` states its range and its top edge |
| SurfaceLocator.NdcRange | android/app/src/main/java/com/virostarterkit/ARMeasureModule.kt:313-314 | a tap inside the view maps into [-1, 1]², with the top-left corner at (-1, 1) |
| SurfaceLocator.RaycastPosition | android/app/src/main/java/com/virostarterkit/ARMeasureModule.kt:302-337 | null only when the raycast throws; otherwise the camera position plus the world ray direction at depth 1.0 |
| SurfaceLocator.RaycastIsPointAtEstimatedDepth | android/app/src/main/java/com/virostarterkit/ARMeasureModule.kt:312-333 | under an affine pose matrix, the fallback point is the camera-space point (ndcX, ndcY, -1) mapped to world space, so it lies at the assumed depth along the tap ray |
| SurfaceLocator.GetWorldPosition | android/app/src/main/java/com/virostarterkit/ARMeasureModule.kt:183-227 | an accepted hit wins whatever depth or raycast give; with none, depth is tried before the raycast; null only when all three fail |
| NativeCorrection.RangeFactor | android/app/src/main/java/com/virostarterkit/ARMeasureModule.kt:356-363 | the factor lies in [0.98, 1.03]; it boosts exactly below 1 m and shrinks exactly from 3 m on |
| NativeCorrection.RangeFactorNonIncreasing | android/app/src/main/java/com/virostarterkit/ARMeasureModule.kt:356-363 | longer raw distances never get a larger range factor |
| NativeCorrection.DepthFactor | android/app/src/main/java/com/virostarterkit/ARMeasureModule.kt:365-371 | the factor is one of 1.02, 1.01, 1.0, 0.99; it is 0.99 for every depth above 3 m (the `> 5.0` arm is never reached) and 1.0 on [1, 3] |
| NativeCorrection.DepthFactorNonIncreasing | android/app/src/main/java/com/virostarterkit/ARMeasureModule.kt:365-371 | deeper points never get a larger depth factor |
| NativeCorrection.ProductBounds | android/app/src/main/java/com/virostarterkit/ARMeasureModule.kt:356-371 | a non-negative distance times the two factors lies between d·0.98·0.99 and d·1.03·1.02 |
| NativeCorrection.CorrectionBounds | android/app/src/main/java/com/virostarterkit/ARMeasureModule.kt:354-373 | the floored corrected distance lies in the product's range |
| NativeCorrection.ApplyProfessionalCorrections | android/app/src/main/java/com/virostarterkit/ARMeasureModule.kt:349-374 | the result is never below 0.001; for a non-negative raw distance it lies between d·0.98·0.99 and max(d·1.03·1.02, 0.001), equals the corrected product whenever that reaches 0.001, and is exactly 0.001 when it does not |
| NativeCorrection.AccuracyEstimate | android/app/src/main/java/com/virostarterkit/ARMeasureModule.kt:392-414 | the label is one of the nine bands; below 0.2 m it is a 1 or 2 mm band; "±1 mm" exactly for distance < 0.2 and depth < 0.5; "±3 cm" exactly from 3 m on |
| NativeCorrection.AccuracyIgnoresDepthBeyondOneMetre | android/app/src/main/java/com/virostarterkit/ARMeasureModule.kt:397-413 | from 1 m on, the label does not depend on the camera depth |
| NativeCorrection.MillimetreBandsBelowOneMetre | android/app/src/main/java/com/virostarterkit/ARMeasureModule.kt:397-409 | a millimetre band is only reported below 1 m |
| NativeCorrection.RawConfidence | android/app/src/main/java/com/virostarterkit/ARMeasureModule.kt:417-443 | the unclamped score lies in [0.7, 1.15]; without depth data or plane hits it is at most 0.9; it rises above the base 0.8 only with depth data, plane hits or both points nearer than 1 m |
| NativeCorrection.CalculateConfidence | android/app/src/main/java/com/virostarterkit/ARMeasureModule.kt:416-446 | the score is clamped into [0.5, 1.0] and is never below 0.7; without depth data and plane hits it is at most 0.9; with both it is at least 0.95 |
| NativeCorrection.ConfidenceMonotone | android/app/src/main/java/com/virostarterkit/ARMeasureModule.kt:417-434 | having depth data or both points on planes never lowers the confidence |
| MeasureModule.CameraDepth | android/app/src/main/java/com/virostarterkit/ARMeasureModule.kt:376-390 | 0 without a session or frame; otherwise a non-negative distance that is 0 only at the camera position |
| MeasureModule.CalculatePreciseDistance | android/app/src/main/java/com/virostarterkit/ARMeasureModule.kt:339-347 | the corrected distance is at least 0.001 and within the correction range of the Euclidean distance |
| MeasureModule.MeasureDistance | android/app/src/main/java/com/virostarterkit/ARMeasureModule.kt:91-155 | NO_SESSION, NO_FRAME and NO_SURFACE leave the points unchanged; otherwise exactly the located point is appended; nothing but the points changes; the first point is reported as captured; from the second on, the reply carries the last two points, their corrected distance, cm = m·100, the accuracy label that `getAccuracyEstimate` gives for that distance and average camera depth, the confidence that `calculateConfidence` gives for the depth-image, plane and camera-depth evidence (so within [0.7, 1]), and totalPoints = list length |
| MeasureModule.ClearMeasurements | android/app/src/main/java/com/virostarterkit/ARMeasureModule.kt:158-161 | the point list becomes empty and the session and the frame are kept |
| MeasureModule.History | android/app/src/main/java/com/virostarterkit/ARMeasureModule.kt:164-181 | n points give max(n-1, 0) entries; entry i is (p[i], p[i+1]) with their corrected distance |
| MeasureModule.PreciseDistanceIgnoresPoints | android/app/src/main/java/com/virostarterkit/ARMeasureModule.kt:339-347 | the corrected distance depends on the session and frame, not on the stored points |
| MeasureModule.HistoryOfAppend | android/app/src/main/java/com/virostarterkit/ARMeasureModule.kt:164-181 | appending a point adds one history entry, from the previous last point to the new one |
| MeasureModule.HistoryEmptyAfterClear | android/app/src/main/java/com/virostarterkit/ARMeasureModule.kt:158-181 | after clearing, the history is empty |
| MeasureModule.MeasuredTapExtendsHistory | android/app/src/main/java/com/virostarterkit/ARMeasureModule.kt:119-139 | the segment a tap reports is exactly the entry it adds to the history |
| Polylines.Segments | src/ARMeasureScene.tsx:199-201 | a polyline of n ≥ 1 points has n-1 segments and segment i is (pts[i], pts[i+1]) |
| Polylines.SegmentsOfAppend | src/ARMeasureScene.tsx:199-201 | adding a point to a non-empty polyline adds one segment from its old last point |
| MeasureScene.HandleClick | src/ARMeasureScene.tsx:49-64 | from idle it starts drawing with exactly [pos]; while drawing it appends pos and keeps earlier points; otherwise nothing changes; the drawing invariant is kept |
| MeasureScene.ClickAddsSegment | src/ARMeasureScene.tsx:55-57 | a tap while drawing adds exactly one rendered segment, ending at the tap |
| MeasureScene.HandleDrag | src/ARMeasureScene.tsx:156-162 | only currentPoints[index] is replaced and the length is kept; not drawing or index ≥ length is a no-op |
| MeasureScene.HandleFinishedDrag | src/ARMeasureScene.tsx:164-168 | fails exactly for an unknown measurement index; otherwise changes only point [m][p] |
| MeasureScene.HandleFinishMeasurement | src/ARMeasureScene.tsx:170-189 | with drawing and ≥ 2 points it files a copy of currentPoints, clears them and stops drawing; otherwise the whole state is unchanged |
| MeasureScene.HandleReset | src/ARMeasureScene.tsx:191-196 | from any state: no current points, no finished measurements, not drawing |
| MeasureScene.ResetIdempotent | src/ARMeasureScene.tsx:191-196 | corollary: resetting twice equals resetting once |
| MeasureScene.TwoTapsThenFinish | src/ARMeasureScene.tsx:49-64 | corollary: from idle, two taps and a finish file exactly one two-point measurement |
| MeasureScene.SceneDepthFactor | src/ARMeasureScene.tsx:85-102 | the factor lies in [0.92, 1.08]; it is 1 exactly on [1, 2) and below 1 exactly under 1 m |
| MeasureScene.SceneDepthFactorMonotone | src/ARMeasureScene.tsx:88-102 | the depth factor never decreases with depth |
| MeasureScene.Ratio | src/ARMeasureScene.tsx:105 | the share is NaN exactly when the basic distance is zero |
| MeasureScene.PerspectiveFactor | src/ARMeasureScene.tsx:105-110 | the factor lies in [0.96, 1] and is below 1 exactly for a depth share above 0.5 |
| MeasureScene.HorizontalityFactor | src/ARMeasureScene.tsx:113-116 | the factor is 1.01 exactly for a vertical share below 0.1, else 1 |
| MeasureScene.SceneCorrectionFactor | src/ARMeasureScene.tsx:85-116 | the total factor lies in [0.92·0.96, 1.08·1.01] |
| MeasureScene.FactorBounds | src/ARMeasureScene.tsx:85-116 | the product of the three factors stays in [0.92·0.96, 1.08·1.01] |
| MeasureScene.CalculateAccurateDistance | src/ARMeasureScene.tsx:73-122 | the corrected centimetres lie between 100·0.92·0.96 and 100·1.08·1.01 times the Euclidean distance, and are 0 exactly for equal points |
| MeasureScene.AccurateDistanceSymmetric | src/ARMeasureScene.tsx:73-122 | swapping the two points does not change the corrected distance |
| MeasureScene.ClassifyAccuracy | src/ARMeasureScene.tsx:145-153 | "Low" iff depth > 4 or distance < 0.02; "Medium" iff not Low and (depth > 2.5 or distance < 0.05); "High" iff depth ≤ 2 and distance ≥ 0.05; "Good" iff 2 < depth ≤ 2.5 and distance ≥ 0.05 |
| MeasureScene.GetMeasurementAccuracy | src/ARMeasureScene.tsx:138-154 | coinciding points are "Low"; "High" needs the two depths to sum to at most 4 m; two points beyond 4 m are "Low" |
| SensorNative.RegisterAll | android/app/src/main/java/com/virostarterkit/SensorFusionModule.kt:43-58 | registration throws exactly when some slot throws; otherwise it counts the accepting slots and tries every present sensor |
| SensorNative.StartSensors | android/app/src/main/java/com/virostarterkit/SensorFusionModule.kt:36-70 | when active: "already active" with no registration; otherwise active iff nothing threw and at least one sensor registered; zero registrations reject and leave the flag false; only the flag changes |
| SensorNative.StartTwiceRegistersOnce | android/app/src/main/java/com/virostarterkit/SensorFusionModule.kt:38-41 | corollary: a second start after a successful one registers nothing and changes nothing |
| SensorNative.StopSensors | android/app/src/main/java/com/virostarterkit/SensorFusionModule.kt:73-80 | after a stop that does not throw the module is inactive; the readings are untouched |
| SensorNative.Store | android/app/src/main/java/com/virostarterkit/SensorFusionModule.kt:86-102 | writing one kind's vector leaves the other kinds and the flag alone |
| SensorNative.CopyPrefix | android/app/src/main/java/com/virostarterkit/SensorFusionModule.kt:88-100 | the first min(3, n) coordinates are overwritten in order and the rest are kept |
| SensorNative.ProcessSensorData | android/app/src/main/java/com/virostarterkit/SensorFusionModule.kt:114-150 | nothing is emitted while inactive; otherwise the payload carries exactly the three stored vectors |
| SensorNative.OnSensorChanged | android/app/src/main/java/com/virostarterkit/SensorFusionModule.kt:82-112 | a reading changes only its own kind's vector (with three values, to exactly those values); other kinds change nothing; it emits exactly the stored readings unless inactive or cut short by fewer than three values |
| SensorNative.SensorEventIdempotent | android/app/src/main/java/com/virostarterkit/SensorFusionModule.kt:82-112 | corollary: delivering the same complete reading twice has the effect of one delivery |
| SensorBridge.StartSensors | src/native-modules/SensorFusionModule.ts:26-44 | fails when unavailable; when active, returns 'Sensors already active' without calling native; a native success sets the flag and returns its message or the default; a native failure is rethrown with the flag unchanged |
| SensorBridge.StopSensors | src/native-modules/SensorFusionModule.ts:46-58 | a no-op unless available and active; after a native stop that does not throw, the flag is false |
| SensorBridge.StartThenStop | src/native-modules/SensorFusionModule.ts:26-58 | corollary: a successful start followed by a successful stop returns to the original manager |
| SensorBridge.SetupEventListener | src/native-modules/SensorFusionModule.ts:60-108 | a removing cleanup is returned exactly when available and the registration does not throw, and it comes with a live subscription |
| SensorBridge.RunCleanup | src/native-modules/SensorFusionModule.ts:97-103 | the cleanup removes and nulls the current subscription, and reports a removal exactly when one existed |
| SensorBridge.CleanupIdempotent | src/native-modules/SensorFusionModule.ts:97-103 | calling the cleanup again removes nothing and changes nothing |
| SensorBridge.SlotValue | src/native-modules/SensorFusionModule.ts:71-83 | a slot is the raw value when it is of type number (NaN included), else 0 |
| SensorBridge.Triple | src/native-modules/SensorFusionModule.ts:70-84 | each vector has exactly three slots |
| SensorBridge.Sanitise | src/native-modules/SensorFusionModule.ts:69-86 | always three 3-element vectors, slot by slot from the raw event, zero-filled for a null event |
| SensorBridge.SanitiseIdempotent | src/native-modules/SensorFusionModule.ts:69-86 | sanitised data sent through again comes out unchanged |
| SensorBridge.NativePayloadSurvivesSanitising | src/native-modules/SensorFusionModule.ts:67-88 | a payload emitted by the native module reaches the callback with exactly its stored readings |

## Left out

- Platform I/O is not modelled: ARCore setup and availability (`initializeARCore`), `updateFrame` and `getConstants`. The session and frame are inputs of `MeasureModule.Engine`.
- Promise and map marshalling, `distanceFormatted`/`String.format`, `toFixed`, `Math.round` and logging are not modelled. Every distance is the unrounded real value.
- `calculateMidpoint`, materials, styles, the instruction text and the overlay are presentation only.
- IEEE float rounding and `toInt()` truncation of negative values are not modelled. Screen coordinates are required to be non-negative (`SurfaceLocator.ValidTap`), which rules out the negative case, and the depth index uses the floor.
- SurfaceLocator.GetWorldPosition: a zero view width or height and a zero focal length `fx` or `fy` are excluded (`SurfaceLocator.ValidTap`, `SurfaceLocator.Frame.Valid`). The code accepts them and then divides by zero in floating point, giving NaN or infinite coordinates that reals cannot represent: a 0/0 depth index becomes 0 through `toInt()`, and a raycast through an infinite NDC yields a non-finite point. The same exclusion holds for `SurfaceLocator.PositionFromDepth`, `SurfaceLocator.RaycastPosition` and `DepthSampler.DepthPixel`.
- MeasureModule.MeasureDistance: inherits the exclusion above, so a tap in a zero-size view or on a frame with a zero focal length is not modelled.
- The pose matrix and `Matrix.multiplyMV` are an opaque transform. `acquireDepthImage16Bits` and the ByteBuffer reads become a grid of millimetres. The `index < capacity - 1` check always passes on a well-formed grid.
- DepthSampler.DepthAt: the grid holds the values the code reads, not necessarily ARCore's depth. The code reads each sample with the signed `getShort` in the buffer's default big-endian order (`ByteOrder` is imported but never applied, ARMeasureModule.kt:10 and 259-265), while ARCore stores unsigned little-endian millimetres, so the code probably misreads every sample. That byte-order and sign conversion is not modelled.
- Exceptions inside `getPositionFromDepth` and the `MEASUREMENT_ERROR` catch of `measureDistance` are not modelled; the raycast's catch is the flag `raycastFails`. An exception raised after `measurementPoints.add(worldPosition)` (ARMeasureModule.kt:118) rejects the promise with `MEASUREMENT_ERROR` (:153) but leaves the point appended; the model has no reply for that state.
- MeasureModule.MeasureDistance: the plane test of `calculateConfidence` is a boolean input. The code calls `hitTest` with world coordinates as if they were screen coordinates, and that call is not modelled.
- The `reactApplicationContext == null` test of `processSensorData` is not modelled (the context is taken to exist). The emitter, `onAccuracyChanged` and `onCatalystInstanceDestroy` are left out too.
- SensorBridge.SetupEventListener: the model keeps one subscription flag. A second setup overwrites the earlier subscription without removing it, and that leaked listener is not modelled.
- SensorBridge.StartSensors: a native message that is `null`/`undefined` is not modelled; only the empty string stands for a falsy message.
- MeasureScene.HandleDrag: a negative index, which JavaScript would store as a property, is not representable; indices are `nat`.
- MeasureScene.HandleFinishedDrag: a point index past the end of a known measurement is excluded by its precondition. JavaScript would grow the array with holes, and that is not modelled.
- MeasurementUtils.IsPointOnPlane: the source's default `threshold = 0.01` is not modelled as a default; every caller passes the threshold, and the lemmas about the test hold for every positive threshold.
- MeasurementUtils.GetStablePosition requires a non-empty list; JavaScript would return NaN coordinates for an empty one.
- MeasureScene.GetMeasurementAccuracy: states only a few consequences of the classifier. The rounding of depths to 0.1 cm is not modelled, so band edges can differ by that rounding.
- `src/hooks/useSensorDataSafe.ts` is entirely commented out. The depth-sensor module, the packages, `MainApplication.kt`, `App.tsx` and `src/Modules/ARMeasureModule.ts` are capability queries and registration glue. None of these is part of this model.

Where the code and its documentation differ, the model follows the code:
- The sanitiser keeps NaN and infinities, because they are of type number; only non-number slots become 0.
- The two correction tables differ (native and scene) and are kept separate.
- The native depth factor's `> 5.0` arm can never be reached.
- The confidence floor 0.5 is never reached, because the raw score is at least 0.7.

=== FILE: depth_sampler.dfy ===
/** The depth-sensor fallback of the native module (`getPositionFromDepth`): map the tap to a
    depth pixel, read a clamped 5 x 5 neighbourhood, keep the plausible readings and pick
    their median. */
module DepthSampler {
  import opened Results
  import opened SortedSamples

  /** The 16-bit depth image as a grid of readings in millimetres, `millimetres[y][x]`. */
  datatype DepthImage = DepthImage(width: int, height: int, millimetres: seq<seq<int>>) {
    predicate Valid() {
      0 <= width && 0 <= height && |millimetres| == height
      && forall y :: 0 <= y < height ==> |millimetres[y]| == width
    }
  }

  /** Half the side of the sampled square. */
  const SampleRadius := 2

  /** Side of the sampled square, 2 * SampleRadius + 1. */
  const SampleSide := 5

  /** Kotlin `coerceIn(lo, hi)`. */
  function Clamp(v: int, lo: int, hi: int): (r: int)
    requires lo <= hi
    ensures lo <= r <= hi
    ensures lo <= v <= hi ==> r == v
  {
    if v < lo then lo else if v > hi then hi else v
  }

  /** `(screen / view * depthSize).toInt()` for a non-negative screen coordinate. */
  function ScaleToDepth(screen: real, view: int, depthSize: int): int
    requires screen >= 0.0 && view > 0 && depthSize >= 0
  {
    (screen / view as real * depthSize as real).Floor
  }

  lemma ScaleToDepthNonNegative(screen: real, view: int, depthSize: int)
    requires screen >= 0.0 && view > 0 && depthSize >= 0
    ensures ScaleToDepth(screen, view, depthSize) >= 0
  {
    assert screen / view as real >= 0.0;
    assert screen / view as real * depthSize as real >= 0.0;
  }

  /** The depth pixel under a tap, or None when it falls outside [0, width) x [0, height). */
  function DepthPixel(screenX: real, screenY: real, viewWidth: int, viewHeight: int, img: DepthImage)
    : (r: Option<(int, int)>)
    requires screenX >= 0.0 && screenY >= 0.0 && viewWidth > 0 && viewHeight > 0 && img.Valid()
    ensures r.Some? <==> ScaleToDepth(screenX, viewWidth, img.width) < img.width
                         && ScaleToDepth(screenY, viewHeight, img.height) < img.height
    ensures r.Some? ==> r.value == (ScaleToDepth(screenX, viewWidth, img.width),
                                    ScaleToDepth(screenY, viewHeight, img.height))
    ensures r.Some? ==> 0 <= r.value.0 < img.width && 0 <= r.value.1 < img.height
  {
    ScaleToDepthNonNegative(screenX, viewWidth, img.width);
    ScaleToDepthNonNegative(screenY, viewHeight, img.height);
    var depthX := ScaleToDepth(screenX, viewWidth, img.width);
    var depthY := ScaleToDepth(screenY, viewHeight, img.height);
    if depthX < 0 || depthX >= img.width || depthY < 0 || depthY >= img.height then None
    else Some((depthX, depthY))
  }

  lemma ScaleBelowSize(screen: real, view: int, depthSize: int)
    requires 0.0 <= screen < view as real && view > 0 && depthSize > 0
    ensures ScaleToDepth(screen, view, depthSize) < depthSize
  {
    var f := screen / view as real;
    assert f < 1.0;
    assert f * depthSize as real < depthSize as real;
  }

  /** A tap strictly inside the view always lands on a depth pixel of a non-empty image. */
  lemma TapInsideViewHasDepthPixel(screenX: real, screenY: real, viewWidth: int, viewHeight: int,
                                   img: DepthImage)
    requires 0.0 <= screenX < viewWidth as real && 0.0 <= screenY < viewHeight as real
    requires img.Valid() && img.width > 0 && img.height > 0
    ensures DepthPixel(screenX, screenY, viewWidth, viewHeight, img).Some?
  {
    ScaleBelowSize(screenX, viewWidth, img.width);
    ScaleBelowSize(screenY, viewHeight, img.height);
  }

  /** A reading converted to metres. */
  function ReadingMetres(img: DepthImage, x: int, y: int): real
    requires img.Valid() && 0 <= x < img.width && 0 <= y < img.height
  {
    img.millimetres[y][x] as real / 1000.0
  }

  /** The sensor-noise filter: strictly between 0.1 m and 10.0 m. */
  predicate IsValidDepth(metres: real) {
    0.1 < metres < 10.0
  }

  /** On the millimetre grid the filter keeps exactly the readings in (100, 10000). */
  lemma ValidDepthInMillimetres(mm: int)
    ensures IsValidDepth(mm as real / 1000.0) <==> 100 < mm < 10000
  {
  }

  /** Column of the k-th sample (dx runs fastest, from -2 to 2). */
  function SampleX(img: DepthImage, x: int, k: int): (sx: int)
    requires 0 <= x < img.width
    ensures 0 <= sx < img.width
  {
    Clamp(x + k % SampleSide - SampleRadius, 0, img.width - 1)
  }

  /** Row of the k-th sample (dy is the outer loop, from -2 to 2). */
  function SampleY(img: DepthImage, y: int, k: int): (sy: int)
    requires 0 <= y < img.height
    ensures 0 <= sy < img.height
  {
    Clamp(y + k / SampleSide - SampleRadius, 0, img.height - 1)
  }

  /** The 25 readings of the neighbourhood, in the order the nested loops visit them;
      every coordinate is clamped into the image. */
  function Neighbourhood(img: DepthImage, x: int, y: int): (r: seq<real>)
    requires img.Valid() && 0 <= x < img.width && 0 <= y < img.height
    ensures |r| == SampleSide * SampleSide
  {
    seq(SampleSide * SampleSide, k => ReadingMetres(img, SampleX(img, x, k), SampleY(img, y, k)))
  }

  /** The readings that pass the filter, in order. */
  function KeepValid(s: seq<real>): (r: seq<real>)
    ensures |r| <= |s|
    ensures forall i :: 0 <= i < |r| ==> IsValidDepth(r[i])
    ensures forall v :: v in r <==> v in s && IsValidDepth(v)
  {
    if |s| == 0 then []
    else
      var init := KeepValid(s[..|s| - 1]);
      assert s == s[..|s| - 1] + [s[|s| - 1]];
      if IsValidDepth(s[|s| - 1]) then init + [s[|s| - 1]] else init
  }

  /** The samples list of `getPositionFromDepth` once both loops have run. */
  function ValidSamples(img: DepthImage, x: int, y: int): (r: seq<real>)
    requires img.Valid() && 0 <= x < img.width && 0 <= y < img.height
    ensures |r| <= SampleSide * SampleSide
  {
    KeepValid(Neighbourhood(img, x, y))
  }

  lemma IndexSplit(row: int, col: int)
    requires 0 <= col < SampleSide
    ensures (row * SampleSide + col) % SampleSide == col
    ensures (row * SampleSide + col) / SampleSide == row
  {
  }

  /** The reading the loops visit at offset (dx, dy) is the neighbourhood entry at its
      flat index. */
  lemma NeighbourhoodAt(img: DepthImage, x: int, y: int, dx: int, dy: int)
    requires img.Valid() && 0 <= x < img.width && 0 <= y < img.height
    requires -SampleRadius <= dx <= SampleRadius && -SampleRadius <= dy <= SampleRadius
    ensures var k := (dy + SampleRadius) * SampleSide + (dx + SampleRadius);
      0 <= k < SampleSide * SampleSide
      && Neighbourhood(img, x, y)[k]
         == ReadingMetres(img, Clamp(x + dx, 0, img.width - 1), Clamp(y + dy, 0, img.height - 1))
  {
    IndexSplit(dy + SampleRadius, dx + SampleRadius);
  }

  /** Filtering one more reading appends it exactly when it is plausible. */
  lemma KeepValidStep(s: seq<real>, i: nat)
    requires i < |s|
    ensures KeepValid(s[..i + 1]) == KeepValid(s[..i]) + (if IsValidDepth(s[i]) then [s[i]] else [])
  {
    assert s[..i + 1][..i] == s[..i];
  }

  /** One pass of the inner loop: the five readings of row offset `dy`, filtered onto the
      samples collected so far. */
  method SampleRow(img: DepthImage, x: int, y: int, dy: int, samples: seq<real>, readCount: nat)
    returns (samples': seq<real>, readCount': nat)
    requires img.Valid() && 0 <= x < img.width && 0 <= y < img.height
    requires -SampleRadius <= dy <= SampleRadius
    requires readCount == (dy + SampleRadius) * SampleSide
    requires samples == KeepValid(Neighbourhood(img, x, y)[..readCount])
    ensures readCount' == readCount + SampleSide
    ensures samples' == KeepValid(Neighbourhood(img, x, y)[..readCount'])
  {
    ghost var all := Neighbourhood(img, x, y);
    samples', readCount' := samples, readCount;
    var dx := -SampleRadius;
    while dx <= SampleRadius
      invariant -SampleRadius <= dx <= SampleRadius + 1
      invariant readCount' == readCount + (dx + SampleRadius)
      invariant samples' == KeepValid(all[..readCount'])
    {
      var sampleX := Clamp(x + dx, 0, img.width - 1);
      var sampleY := Clamp(y + dy, 0, img.height - 1);
      var depthMetres := ReadingMetres(img, sampleX, sampleY);
      NeighbourhoodAt(img, x, y, dx, dy);
      KeepValidStep(all, readCount');
      if IsValidDepth(depthMetres) {
        samples' := samples' + [depthMetres];
      }
      readCount' := readCount' + 1;
      dx := dx + 1;
    }
  }

  /** The nested sampling loops as written: every visited pixel is read once (25 reads) and
      the plausible readings are collected in visiting order. */
  method CollectSamples(img: DepthImage, x: int, y: int) returns (samples: seq<real>, readCount: nat)
    requires img.Valid() && 0 <= x < img.width && 0 <= y < img.height
    ensures samples == ValidSamples(img, x, y)
    ensures readCount == SampleSide * SampleSide
  {
    ghost var all := Neighbourhood(img, x, y);
    samples := [];
    readCount := 0;
    var dy := -SampleRadius;
    while dy <= SampleRadius
      invariant -SampleRadius <= dy <= SampleRadius + 1
      invariant readCount == (dy + SampleRadius) * SampleSide
      invariant samples == KeepValid(all[..readCount])
    {
      samples, readCount := SampleRow(img, x, y, dy, samples, readCount);
      dy := dy + 1;
    }
    assert all[..readCount] == all;
  }

  /** The median depth of the neighbourhood: None when no reading passes the filter,
      otherwise a plausible reading with at most half of the valid samples below it. */
  function DepthAt(img: DepthImage, x: int, y: int): (r: Option<real>)
    requires img.Valid() && 0 <= x < img.width && 0 <= y < img.height
    ensures r.None? <==> forall k :: 0 <= k < |Neighbourhood(img, x, y)| ==>
                                       !IsValidDepth(Neighbourhood(img, x, y)[k])
    ensures r.Some? ==> IsValidDepth(r.value) && r.value in Neighbourhood(img, x, y)
    ensures r.Some? ==> var v := ValidSamples(img, x, y);
                        CountBelow(v, r.value) <= |v| / 2 < CountAtMost(v, r.value)
  {
    var v := ValidSamples(img, x, y);
    var all := Neighbourhood(img, x, y);
    if |v| == 0 then
      assert forall k :: 0 <= k < |all| ==> all[k] in all;
      None
    else
      assert v[0] in v;
      Some(Median(v))
  }
}

=== FILE: measure_module.dfy ===
/** The native measurement engine (ARMeasureModule.kt): the list of tapped points, the tap
    handler that extends it and reports the newest segment, and the history of segments. */
module MeasureModule {
  import opened Results
  import opened Vectors
  import opened Polylines
  import opened SurfaceLocator
  import opened NativeCorrection

  /** Module state: whether `initializeARCore` created a session, the frame stored by the
      last `updateFrame`, and `measurementPoints`. */
  datatype Engine = Engine(sessionReady: bool, frame: Option<Frame>, points: seq<Vec3>)

  /** The rejection codes of `measureDistance`: NO_SESSION, NO_FRAME, NO_SURFACE. */
  datatype TapError = NoSession | NoFrame | NoSurface

  /** The map resolved once a tap completes a segment (the formatted string is left out). */
  datatype Measurement = Measurement(
    distance: real,
    distanceCm: real,
    point1: Vec3,
    point2: Vec3,
    accuracy: string,
    confidence: real,
    totalPoints: nat)

  datatype TapReply =
    | Rejected(error: TapError)
    | FirstPointCaptured(point: Vec3)
    | Measured(measurement: Measurement)

  /** One entry of `getMeasurementHistory`. */
  datatype HistoryEntry = HistoryEntry(point1: Vec3, point2: Vec3, distance: real)

  predicate ValidEngine(e: Engine) {
    e.frame.Some? ==> e.frame.value.Valid()
  }

  /** `calculateDepthFromCamera`: 0 without a session or a frame, else the distance from
      the camera position to the point. */
  function CameraDepth(sqrt: real -> real, e: Engine, p: Vec3): (d: real)
    requires IsSqrt(sqrt)
    ensures d >= 0.0
    ensures !e.sessionReady || e.frame.None? ==> d == 0.0
    ensures e.sessionReady && e.frame.Some? ==> (d == 0.0 <==> p == e.frame.value.cameraPose.Translation())
  {
    if !e.sessionReady || e.frame.None? then 0.0
    else Distance(sqrt, e.frame.value.cameraPose.Translation(), p)
  }

  function AverageDepth(sqrt: real -> real, e: Engine, p1: Vec3, p2: Vec3): real
    requires IsSqrt(sqrt)
  {
    (CameraDepth(sqrt, e, p1) + CameraDepth(sqrt, e, p2)) / 2.0
  }

  /** `calculatePreciseDistance`: the Euclidean distance corrected by range and camera depth. */
  function CalculatePreciseDistance(sqrt: real -> real, e: Engine, p1: Vec3, p2: Vec3): (r: real)
    requires IsSqrt(sqrt)
    ensures r >= MinDistance
    ensures Distance(sqrt, p1, p2) * 0.98 * 0.99 <= r <= Max(Distance(sqrt, p1, p2) * 1.03 * 1.02, MinDistance)
  {
    ApplyProfessionalCorrections(Distance(sqrt, p1, p2), AverageDepth(sqrt, e, p1, p2))
  }

  /** The result map of a tap that completes a segment from p1 to p2. */
  function SegmentResult(sqrt: real -> real, e: Engine, p1: Vec3, p2: Vec3, bothOnPlanes: bool): Measurement
    requires IsSqrt(sqrt) && e.frame.Some?
  {
    var distance := CalculatePreciseDistance(sqrt, e, p1, p2);
    var accuracy := AccuracyEstimate(distance, AverageDepth(sqrt, e, p1, p2));
    var confidence := CalculateConfidence(e.frame.value.depthImage.Some?, bothOnPlanes,
                                          CameraDepth(sqrt, e, p1), CameraDepth(sqrt, e, p2));
    Measurement(distance, distance * 100.0, p1, p2, accuracy, confidence, |e.points|)
  }

  /** `measureDistance`. A rejected tap leaves the points alone; an accepted one appends
      exactly the located point; from the second point on the reply describes the last two
      points and counts all of them. `bothOnPlanes` is the plane test of
      `calculateConfidence`, taken as given. */
  function MeasureDistance(sqrt: real -> real, e: Engine, screenX: real, screenY: real,
                           viewWidth: int, viewHeight: int, bothOnPlanes: bool): (r: (Engine, TapReply))
    requires IsSqrt(sqrt) && ValidEngine(e) && ValidTap(screenX, screenY, viewWidth, viewHeight)
    ensures r.0 == e.(points := r.0.points)
    ensures !e.sessionReady ==> r.1 == Rejected(NoSession)
    ensures e.sessionReady && e.frame.None? ==> r.1 == Rejected(NoFrame)
    ensures e.sessionReady && e.frame.Some? ==>
      var pos := GetWorldPosition(e.frame.value, screenX, screenY, viewWidth, viewHeight);
      && (pos.None? <==> r.1 == Rejected(NoSurface))
      && (pos.Some? ==> r.0.points == e.points + [pos.value])
    ensures r.1.Rejected? ==> r.0.points == e.points
    ensures !r.1.Rejected? ==> |r.0.points| == |e.points| + 1 && r.0.points[..|e.points|] == e.points
    ensures r.1.FirstPointCaptured? <==> !r.1.Rejected? && |e.points| == 0
    ensures r.1.FirstPointCaptured? ==> r.0.points == [r.1.point]
    ensures r.1.Measured? ==>
      var m := r.1.measurement;
      var n := |r.0.points|;
      && n >= 2 && m.point1 == r.0.points[n - 2] && m.point2 == r.0.points[n - 1]
      && m.totalPoints == n
      && m.distance == CalculatePreciseDistance(sqrt, r.0, m.point1, m.point2)
      && m.distance >= MinDistance && m.distanceCm == m.distance * 100.0
      && 0.7 <= m.confidence <= 1.0 && m.accuracy in AccuracyLabels
    ensures e.frame.Some? && r.1.Measured? ==>
      var m := r.1.measurement;
      && m.accuracy == AccuracyEstimate(m.distance, AverageDepth(sqrt, r.0, m.point1, m.point2))
      && m.confidence == CalculateConfidence(e.frame.value.depthImage.Some?, bothOnPlanes,
                                             CameraDepth(sqrt, r.0, m.point1), CameraDepth(sqrt, r.0, m.point2))
  {
    if !e.sessionReady then (e, Rejected(NoSession))
    else if e.frame.None? then (e, Rejected(NoFrame))
    else
      match GetWorldPosition(e.frame.value, screenX, screenY, viewWidth, viewHeight)
      case None => (e, Rejected(NoSurface))
      case Some(worldPosition) =>
        var e' := e.(points := e.points + [worldPosition]);
        var n := |e'.points|;
        if n >= 2 then
          (e', Measured(SegmentResult(sqrt, e', e'.points[n - 2], e'.points[n - 1], bothOnPlanes)))
        else
          (e', FirstPointCaptured(worldPosition))
  }

  /** `clearMeasurements`. */
  function ClearMeasurements(e: Engine): (e': Engine)
    ensures e'.points == [] && e'.sessionReady == e.sessionReady
    ensures e' == e.(points := [])
  {
    e.(points := [])
  }

  function EntryOf(sqrt: real -> real, e: Engine, segment: (Vec3, Vec3)): HistoryEntry
    requires IsSqrt(sqrt)
  {
    HistoryEntry(segment.0, segment.1, CalculatePreciseDistance(sqrt, e, segment.0, segment.1))
  }

  /** `getMeasurementHistory`: one entry per pair of consecutive points, in order. */
  function History(sqrt: real -> real, e: Engine): (h: seq<HistoryEntry>)
    requires IsSqrt(sqrt)
    ensures |h| == if |e.points| == 0 then 0 else |e.points| - 1
    ensures forall i :: 0 <= i < |h| ==> h[i].point1 == e.points[i] && h[i].point2 == e.points[i + 1]
    ensures forall i :: 0 <= i < |h| ==>
      h[i].distance == CalculatePreciseDistance(sqrt, e, e.points[i], e.points[i + 1])
  {
    var segments := Segments(e.points);
    var h := seq(|segments|, i requires 0 <= i < |segments| => EntryOf(sqrt, e, segments[i]));
    forall i | 0 <= i < |h|
      ensures h[i].point1 == e.points[i] && h[i].point2 == e.points[i + 1]
      ensures h[i].distance == CalculatePreciseDistance(sqrt, e, e.points[i], e.points[i + 1])
    {
      assert segments[i] == (e.points[i], e.points[i + 1]);
      assert h[i] == EntryOf(sqrt, e, segments[i]);
    }
    h
  }

  /** The corrected distance depends on the session and the frame, not on the stored points. */
  lemma PreciseDistanceIgnoresPoints(sqrt: real -> real, e: Engine, points: seq<Vec3>, p1: Vec3, p2: Vec3)
    requires IsSqrt(sqrt)
    ensures CalculatePreciseDistance(sqrt, e.(points := points), p1, p2) == CalculatePreciseDistance(sqrt, e, p1, p2)
  {
    var e' := e.(points := points);
    assert CameraDepth(sqrt, e', p1) == CameraDepth(sqrt, e, p1);
    assert CameraDepth(sqrt, e', p2) == CameraDepth(sqrt, e, p2);
  }

  /** Appending a point adds one entry, from the previous last point to the new one. */
  lemma HistoryOfAppend(sqrt: real -> real, e: Engine, p: Vec3)
    requires IsSqrt(sqrt) && |e.points| > 0
    ensures var last := e.points[|e.points| - 1];
      History(sqrt, e.(points := e.points + [p])) == History(sqrt, e)
        + [HistoryEntry(last, p, CalculatePreciseDistance(sqrt, e, last, p))]
  {
    var e' := e.(points := e.points + [p]);
    var last := e.points[|e.points| - 1];
    var before := History(sqrt, e);
    var after := History(sqrt, e');
    var expected := before + [HistoryEntry(last, p, CalculatePreciseDistance(sqrt, e, last, p))];
    assert |after| == |expected|;
    forall i | 0 <= i < |after|
      ensures after[i] == expected[i]
    {
      PreciseDistanceIgnoresPoints(sqrt, e, e'.points, e'.points[i], e'.points[i + 1]);
      if i < |before| {
        assert e'.points[i] == e.points[i] && e'.points[i + 1] == e.points[i + 1];
      }
    }
  }

  /** After `clearMeasurements` the history is empty. */
  lemma HistoryEmptyAfterClear(sqrt: real -> real, e: Engine)
    requires IsSqrt(sqrt)
    ensures History(sqrt, ClearMeasurements(e)) == []
  {
  }

  /** The segment a tap reports is exactly the entry it adds to the history. */
  lemma MeasuredTapExtendsHistory(sqrt: real -> real, e: Engine, screenX: real, screenY: real,
                                  viewWidth: int, viewHeight: int, bothOnPlanes: bool)
    requires IsSqrt(sqrt) && ValidEngine(e) && ValidTap(screenX, screenY, viewWidth, viewHeight)
    requires MeasureDistance(sqrt, e, screenX, screenY, viewWidth, viewHeight, bothOnPlanes).1.Measured?
    ensures var (e', reply) := MeasureDistance(sqrt, e, screenX, screenY, viewWidth, viewHeight, bothOnPlanes);
      History(sqrt, e') == History(sqrt, e)
        + [HistoryEntry(reply.measurement.point1, reply.measurement.point2, reply.measurement.distance)]
  {
    var (e', reply) := MeasureDistance(sqrt, e, screenX, screenY, viewWidth, viewHeight, bothOnPlanes);
    var n := |e.points|;
    assert e'.points == e.points + [e'.points[n]];
    HistoryOfAppend(sqrt, e, e'.points[n]);
  }
}

=== FILE: measure_scene.dfy ===
/** The scene-side measurement session (ARMeasureScene.tsx): the drawing state machine,
    its own distance correction table and its four-way accuracy classifier. */
module MeasureScene {
  import opened Results
  import opened Vectors
  import opened Polylines

  /** The component state: `isDrawing`, `currentPoints` and `finishedMeasurements`. */
  datatype SceneState = SceneState(isDrawing: bool, currentPoints: seq<Vec3>, finished: seq<seq<Vec3>>)

  const Idle := SceneState(false, [], [])

  /** The invariant the handlers keep: a measurement is in progress exactly when it has
      points, and every finished measurement has at least one segment. */
  predicate Consistent(s: SceneState) {
    && (s.isDrawing <==> |s.currentPoints| > 0)
    && forall k :: 0 <= k < |s.finished| ==> |s.finished[k]| >= 2
  }

  /** `handleClick`: the first tap starts a measurement, later taps extend it. */
  function HandleClick(s: SceneState, pos: Vec3): (r: SceneState)
    ensures r.finished == s.finished
    ensures !s.isDrawing && |s.currentPoints| == 0 ==> r.isDrawing && r.currentPoints == [pos]
    ensures s.isDrawing ==>
      && r.isDrawing && |r.currentPoints| == |s.currentPoints| + 1
      && r.currentPoints[..|s.currentPoints|] == s.currentPoints && r.currentPoints[|s.currentPoints|] == pos
    ensures !s.isDrawing && |s.currentPoints| > 0 ==> r == s
    ensures Consistent(s) ==> Consistent(r) && r.isDrawing && r.currentPoints[|r.currentPoints| - 1] == pos
  {
    if !s.isDrawing && |s.currentPoints| == 0 then
      s.(isDrawing := true, currentPoints := [pos])
    else if s.isDrawing then
      s.(currentPoints := s.currentPoints + [pos])
    else
      s
  }

  /** A tap while drawing adds exactly one rendered segment, ending at the tapped point. */
  lemma ClickAddsSegment(s: SceneState, pos: Vec3)
    requires s.isDrawing && |s.currentPoints| > 0
    ensures var last := s.currentPoints[|s.currentPoints| - 1];
      Segments(HandleClick(s, pos).currentPoints) == Segments(s.currentPoints) + [(last, pos)]
  {
    SegmentsOfAppend(s.currentPoints, pos);
  }

  /** `handleDrag`: moves one point of the measurement in progress. A negative index is not
      representable here; an index past the end is ignored. */
  function HandleDrag(s: SceneState, pos: Vec3, index: nat): (r: SceneState)
    ensures r.isDrawing == s.isDrawing && r.finished == s.finished
    ensures |r.currentPoints| == |s.currentPoints|
    ensures forall i :: 0 <= i < |s.currentPoints| && i != index ==> r.currentPoints[i] == s.currentPoints[i]
    ensures s.isDrawing && index < |s.currentPoints| ==> r.currentPoints[index] == pos
    ensures !s.isDrawing || index >= |s.currentPoints| ==> r == s
    ensures Consistent(s) ==> Consistent(r)
  {
    if s.isDrawing && |s.currentPoints| > index then
      s.(currentPoints := s.currentPoints[index := pos])
    else
      s
  }

  /** `handleFinishedDrag`: moves point `pointIndex` of finished measurement `measurementIndex`.
      An unknown measurement index makes the code throw (`None`). */
  function HandleFinishedDrag(s: SceneState, pos: Vec3, measurementIndex: nat, pointIndex: nat): (r: Option<SceneState>)
    requires measurementIndex < |s.finished| ==> pointIndex < |s.finished[measurementIndex]|
    ensures r.None? <==> measurementIndex >= |s.finished|
    ensures r.Some? ==>
      var t := r.value;
      && t.isDrawing == s.isDrawing && t.currentPoints == s.currentPoints
      && |t.finished| == |s.finished|
      && (forall k :: 0 <= k < |s.finished| && k != measurementIndex ==> t.finished[k] == s.finished[k])
      && |t.finished[measurementIndex]| == |s.finished[measurementIndex]|
      && (forall i :: 0 <= i < |s.finished[measurementIndex]| && i != pointIndex ==>
            t.finished[measurementIndex][i] == s.finished[measurementIndex][i])
      && t.finished[measurementIndex][pointIndex] == pos
    ensures r.Some? && Consistent(s) ==> Consistent(r.value)
  {
    if measurementIndex >= |s.finished| then None
    else
      var m := s.finished[measurementIndex];
      Some(s.(finished := s.finished[measurementIndex := m[pointIndex := pos]]))
  }

  /** `handleFinishMeasurement`: files a measurement with at least two points and returns to
      idle; in any other state nothing changes. */
  function HandleFinishMeasurement(s: SceneState): (r: SceneState)
    ensures s.isDrawing && |s.currentPoints| >= 2 ==>
      && !r.isDrawing && r.currentPoints == []
      && r.finished == s.finished + [s.currentPoints]
    ensures !(s.isDrawing && |s.currentPoints| >= 2) ==> r == s
    ensures Consistent(s) ==> Consistent(r)
  {
    if s.isDrawing && |s.currentPoints| >= 2 then
      s.(finished := s.finished + [s.currentPoints], currentPoints := [], isDrawing := false)
    else
      s
  }

  /** `handleReset`: back to the initial state from anywhere. */
  function HandleReset(s: SceneState): (r: SceneState)
    ensures !r.isDrawing && r.currentPoints == [] && r.finished == []
    ensures Consistent(r)
  {
    Idle
  }

  lemma ResetIdempotent(s: SceneState)
    ensures HandleReset(HandleReset(s)) == HandleReset(s)
  {
  }

  /** From idle, two taps and a finish file exactly one two-point measurement. */
  lemma TwoTapsThenFinish(p1: Vec3, p2: Vec3)
    ensures HandleFinishMeasurement(HandleClick(HandleClick(Idle, p1), p2))
      == SceneState(false, [], [[p1, p2]])
  {
    var s1 := HandleClick(Idle, p1);
    var s2 := HandleClick(s1, p2);
    assert s2.currentPoints == [p1, p2];
  }

  // ---- the scene's own correction table ----

  /** Depth factor of `calculateAccurateDistance`, by average distance from the origin. */
  function SceneDepthFactor(avgDepth: real): (f: real)
    ensures 0.92 <= f <= 1.08
    ensures f == 1.0 <==> 1.0 <= avgDepth < 2.0
    ensures f < 1.0 <==> avgDepth < 1.0
  {
    if avgDepth < 0.3 then 0.92
    else if avgDepth < 0.5 then 0.95
    else if avgDepth < 1.0 then 0.98
    else if avgDepth < 2.0 then 1.0
    else if avgDepth < 3.0 then 1.02
    else if avgDepth < 5.0 then 1.05
    else 1.08
  }

  lemma SceneDepthFactorMonotone(a: real, b: real)
    requires a <= b
    ensures SceneDepthFactor(a) <= SceneDepthFactor(b)
  {
  }

  /** A component's share of the length; `None` stands for the NaN of 0/0 between equal points. */
  function Ratio(part: real, whole: real): (r: Option<real>)
    ensures r.None? <==> whole == 0.0
  {
    if whole == 0.0 then None else Some(part / whole)
  }

  /** Perspective factor; every comparison with NaN is false, so NaN keeps the factor at 1. */
  function PerspectiveFactor(ratio: Option<real>): (f: real)
    ensures 0.96 <= f <= 1.0
    ensures f < 1.0 <==> ratio.Some? && ratio.value > 0.5
  {
    match ratio
    case Some(r) => if r > 0.8 then 0.96 else if r > 0.5 then 0.98 else 1.0
    case None => 1.0
  }

  /** Boost for a mostly horizontal measurement (vertical share below 0.1). */
  function HorizontalityFactor(ratio: Option<real>): (f: real)
    ensures f == 1.0 || f == 1.01
    ensures f == 1.01 <==> ratio.Some? && ratio.value < 0.1
  {
    match ratio
    case Some(r) => if r < 0.1 then 1.01 else 1.0
    case None => 1.0
  }

  const LowestFactor: real := 0.92 * 0.96
  const HighestFactor: real := 1.08 * 1.01

  function SceneCorrectionFactor(p1: Vec3, p2: Vec3, basicDistance: real, avgDepth: real): (f: real)
    ensures LowestFactor <= f <= HighestFactor
  {
    var d := Sub(p2, p1);
    var depth := SceneDepthFactor(avgDepth);
    var perspective := PerspectiveFactor(Ratio(Abs(d.z), basicDistance));
    var horizontal := HorizontalityFactor(Ratio(Abs(d.y), basicDistance));
    FactorBounds(depth, perspective, horizontal);
    depth * perspective * horizontal
  }

  /** Multiplying by a non-negative number keeps an order. */
  lemma MulMonotone(a: real, b: real, c: real)
    requires a <= b && 0.0 <= c
    ensures a * c <= b * c
  {
    calc {
      b * c - a * c;
      (b - a) * c;
    >= { assert 0.0 <= b - a; }
      0.0;
    }
  }

  lemma FactorBounds(d: real, p: real, h: real)
    requires 0.92 <= d <= 1.08 && 0.96 <= p <= 1.0 && 1.0 <= h <= 1.01
    ensures LowestFactor <= d * p * h <= HighestFactor
  {
    MulMonotone(0.92, d, p);
    assert 0.92 * 0.96 <= 0.92 * p <= d * p;
    MulMonotone(d, 1.08, p);
    assert d * p <= 1.08 * p <= 1.08;
    MulMonotone(1.0, h, d * p);
    assert d * p <= d * p * h;
    MulMonotone(h, 1.01, d * p);
    assert d * p * h <= 1.01 * (d * p) <= 1.01 * 1.08;
  }

  /** Scaling a non-negative length by a factor in the table's range; the product is zero
      only for a zero length. */
  lemma ScaleBounds(d: real, f: real)
    requires d >= 0.0 && LowestFactor <= f <= HighestFactor
    ensures d * LowestFactor <= d * f <= d * HighestFactor
    ensures d * f == 0.0 <==> d == 0.0
  {
    MulMonotone(LowestFactor, f, d);
    MulMonotone(f, HighestFactor, d);
    if d != 0.0 {
      calc {
        d * f;
      >= 
        d * LowestFactor;
      > { assert d > 0.0 && LowestFactor > 0.0; }
        0.0;
      }
    }
  }

  /** Distance from the scene origin, used as the camera depth of a point. */
  function DepthFromOrigin(sqrt: real -> real, p: Vec3): (d: real)
    requires IsSqrt(sqrt)
    ensures d >= 0.0
  {
    Distance(sqrt, Origin, p)
  }

  function SceneAverageDepth(sqrt: real -> real, p1: Vec3, p2: Vec3): (d: real)
    requires IsSqrt(sqrt)
    ensures d >= 0.0
  {
    (DepthFromOrigin(sqrt, p1) + DepthFromOrigin(sqrt, p2)) / 2.0
  }

  /** A corrected length in centimetres, from metres and a correction factor. */
  function Centimetres(metres: real, f: real): (cm: real)
    requires metres >= 0.0 && LowestFactor <= f <= HighestFactor
    ensures 100.0 * (metres * LowestFactor) <= cm <= 100.0 * (metres * HighestFactor)
  {
    ScaleBounds(metres, f);
    100.0 * (metres * f)
  }

  /** A corrected length is zero only for a zero length. */
  lemma CentimetresZero(metres: real, f: real)
    requires metres >= 0.0 && LowestFactor <= f <= HighestFactor
    ensures Centimetres(metres, f) == 0.0 <==> metres == 0.0
  {
    ScaleBounds(metres, f);
  }

  /** `calculateAccurateDistance` in centimetres (before its rounding to 0.1 cm). */
  function CalculateAccurateDistance(sqrt: real -> real, p1: Vec3, p2: Vec3): (cm: real)
    requires IsSqrt(sqrt)
    ensures 100.0 * (Distance(sqrt, p1, p2) * LowestFactor) <= cm <= 100.0 * (Distance(sqrt, p1, p2) * HighestFactor)
    ensures cm == 0.0 <==> p1 == p2
  {
    var basic := Distance(sqrt, p1, p2);
    var f := SceneCorrectionFactor(p1, p2, basic, SceneAverageDepth(sqrt, p1, p2));
    CentimetresZero(basic, f);
    Centimetres(basic, f)
  }

  /** The corrected distance does not depend on the direction of the segment. */
  lemma {:induction false} AccurateDistanceSymmetric(sqrt: real -> real, p1: Vec3, p2: Vec3)
    requires IsSqrt(sqrt)
    ensures CalculateAccurateDistance(sqrt, p1, p2) == CalculateAccurateDistance(sqrt, p2, p1)
  {
    DistanceSymmetric(sqrt, p1, p2);
    assert Abs(Sub(p2, p1).z) == Abs(Sub(p1, p2).z);
    assert Abs(Sub(p2, p1).y) == Abs(Sub(p1, p2).y);
  }

  // ---- accuracy classifier ----

  datatype SceneAccuracy = Low | Medium | High | Good

  /** The four-way cascade of `getMeasurementAccuracy` over average depth and distance (m). */
  function ClassifyAccuracy(avgDepth: real, distance: real): (a: SceneAccuracy)
    ensures a == Low <==> avgDepth > 4.0 || distance < 0.02
    ensures a == Medium <==>
      || (2.5 < avgDepth <= 4.0 && distance >= 0.02)
      || (avgDepth <= 2.5 && 0.02 <= distance < 0.05)
    ensures a == High <==> avgDepth <= 2.0 && distance >= 0.05
    ensures a == Good <==> 2.0 < avgDepth <= 2.5 && distance >= 0.05
  {
    if avgDepth > 4.0 || distance < 0.02 then Low
    else if avgDepth > 2.5 || distance < 0.05 then Medium
    else if avgDepth <= 2.0 && distance >= 0.05 then High
    else Good
  }

  /** `getMeasurementAccuracy` for a segment (the depth and distance roundings left out). */
  function GetMeasurementAccuracy(sqrt: real -> real, p1: Vec3, p2: Vec3): (a: SceneAccuracy)
    requires IsSqrt(sqrt)
    ensures p1 == p2 ==> a == Low
    ensures a == High ==> DepthFromOrigin(sqrt, p1) + DepthFromOrigin(sqrt, p2) <= 4.0
    ensures DepthFromOrigin(sqrt, p1) > 4.0 && DepthFromOrigin(sqrt, p2) > 4.0 ==> a == Low
  {
    ClassifyAccuracy(SceneAverageDepth(sqrt, p1, p2), CalculateAccurateDistance(sqrt, p1, p2) / 100.0)
  }
}

=== FILE: measurement_utils.dfy ===
/** Geometry helpers of the scene side (src/utils/measurementUtils.ts): polygon area on the
    floor plane, averaging of recent positions, and plane tests built from a dot product. */
module MeasurementUtils {
  import opened Results
  import opened Vectors

  // ---------------------------------------------------------------------------------------
  // calculateArea: the shoelace formula on the x/z plane

  /** The i-th shoelace term x[i]*z[j] - x[j]*z[i], with j the next index, wrapping to 0. */
  function ShoelaceTerm(pts: seq<Vec3>, i: nat): real
    requires i < |pts|
  {
    var j := (i + 1) % |pts|;
    pts[i].x * pts[j].z - pts[j].x * pts[i].z
  }

  /** Sum of the first k shoelace terms. */
  function ShoelaceSum(pts: seq<Vec3>, k: nat): real
    requires k <= |pts|
  {
    if k == 0 then 0.0 else ShoelaceSum(pts, k - 1) + ShoelaceTerm(pts, k - 1)
  }

  /** Reference definition of the enclosed area: 0 below three points, else half the
      absolute shoelace sum. */
  function Area(pts: seq<Vec3>): real {
    if |pts| < 3 then 0.0 else Abs(ShoelaceSum(pts, |pts|)) / 2.0
  }

  /** `calculateArea`, with its accumulating loop. */
  method CalculateArea(pts: seq<Vec3>) returns (area: real)
    ensures area == Area(pts)
    ensures |pts| < 3 ==> area == 0.0
    ensures area >= 0.0
  {
    if |pts| < 3 {
      return 0.0;
    }
    var sum := 0.0;
    var n := |pts|;
    var i := 0;
    while i < n
      invariant 0 <= i <= n
      invariant sum == ShoelaceSum(pts, i)
    {
      var j := (i + 1) % n;
      sum := sum + pts[i].x * pts[j].z;
      sum := sum - pts[j].x * pts[i].z;
      i := i + 1;
    }
    area := Abs(sum) / 2.0;
  }

  /** Two polygons with the same points seen from above: equal x and z at every index. */
  ghost predicate SameFootprint(a: seq<Vec3>, b: seq<Vec3>) {
    |a| == |b| && forall i :: 0 <= i < |a| ==> a[i].x == b[i].x && a[i].z == b[i].z
  }

  lemma {:induction false} ShoelaceSumIgnoresHeight(a: seq<Vec3>, b: seq<Vec3>, k: nat)
    requires SameFootprint(a, b) && k <= |a|
    ensures ShoelaceSum(a, k) == ShoelaceSum(b, k)
  {
    if k > 0 {
      ShoelaceSumIgnoresHeight(a, b, k - 1);
      var j := k % |a|;
      assert a[k - 1].x == b[k - 1].x && a[k - 1].z == b[k - 1].z;
      assert a[j].x == b[j].x && a[j].z == b[j].z;
    }
  }

  /** The area reads only x and z: polygons with the same footprint have the same area. */
  lemma AreaIgnoresHeight(a: seq<Vec3>, b: seq<Vec3>)
    requires SameFootprint(a, b)
    ensures Area(a) == Area(b)
  {
    ShoelaceSumIgnoresHeight(a, b, |a|);
  }

  /** Raising or lowering any one point leaves the area unchanged. */
  lemma AreaIgnoresPointHeight(pts: seq<Vec3>, k: nat, h: real)
    requires k < |pts|
    ensures Area(pts[k := pts[k].(y := h)]) == Area(pts)
  {
    AreaIgnoresHeight(pts[k := pts[k].(y := h)], pts);
  }

  // ---------------------------------------------------------------------------------------
  // getStablePosition: the average of recent positions

  /** Left-to-right componentwise sum, the `reduce` starting from [0, 0, 0]. */
  function Sum(ps: seq<Vec3>): Vec3 {
    if |ps| == 0 then Origin else Add(Sum(ps[..|ps| - 1]), ps[|ps| - 1])
  }

  /** `getStablePosition`: each coordinate of the sum divided by the number of positions. */
  function GetStablePosition(ps: seq<Vec3>): Vec3
    requires |ps| > 0
  {
    var s := Sum(ps);
    var n := |ps| as real;
    Vec3(s.x / n, s.y / n, s.z / n)
  }

  /** p lies in the axis-aligned box [lo, hi]. */
  predicate Within(p: Vec3, lo: Vec3, hi: Vec3) {
    lo.x <= p.x <= hi.x && lo.y <= p.y <= hi.y && lo.z <= p.z <= hi.z
  }

  lemma {:induction false} SumWithin(ps: seq<Vec3>, lo: Vec3, hi: Vec3)
    requires forall i :: 0 <= i < |ps| ==> Within(ps[i], lo, hi)
    ensures Within(Sum(ps), Scale(lo, |ps| as real), Scale(hi, |ps| as real))
  {
    if |ps| > 0 {
      var init := ps[..|ps| - 1];
      assert forall i :: 0 <= i < |init| ==> init[i] == ps[i];
      SumWithin(init, lo, hi);
      assert Within(ps[|ps| - 1], lo, hi);
      var m := |init| as real;
      ScaleStep(lo, m);
      ScaleStep(hi, m);
    }
  }

  lemma ScaleStep(v: Vec3, m: real)
    ensures Scale(v, m + 1.0) == Add(Scale(v, m), v)
  {
  }

  lemma DivideBounds(s: real, n: real, lo: real, hi: real)
    requires n > 0.0 && n * lo <= s <= n * hi
    ensures lo <= s / n <= hi
  {
  }

  /** Each coordinate of the average lies between the smallest and largest input on that
      axis: it stays inside every box that holds all the inputs. */
  lemma StablePositionWithin(ps: seq<Vec3>, lo: Vec3, hi: Vec3)
    requires |ps| > 0
    requires forall i :: 0 <= i < |ps| ==> Within(ps[i], lo, hi)
    ensures Within(GetStablePosition(ps), lo, hi)
  {
    SumWithin(ps, lo, hi);
    var s := Sum(ps);
    var n := |ps| as real;
    DivideBounds(s.x, n, lo.x, hi.x);
    DivideBounds(s.y, n, lo.y, hi.y);
    DivideBounds(s.z, n, lo.z, hi.z);
  }

  /** Averaging n copies of a position gives that position back. */
  lemma StablePositionOfCopies(ps: seq<Vec3>, p: Vec3)
    requires |ps| > 0
    requires forall i :: 0 <= i < |ps| ==> ps[i] == p
    ensures GetStablePosition(ps) == p
  {
    StablePositionWithin(ps, p, p);
  }

  // ---------------------------------------------------------------------------------------
  // Plane tests

  /** `isPointOnPlane`: the offset from the plane point has a dot product with the normal
      strictly below the threshold in absolute value. */
  predicate IsPointOnPlane(point: Vec3, planeNormal: Vec3, planePoint: Vec3, threshold: real) {
    Abs(Dot(Sub(point, planePoint), planeNormal)) < threshold
  }

  /** The plane's own anchor point is on the plane for every positive threshold. */
  lemma PlanePointIsOnPlane(planeNormal: Vec3, planePoint: Vec3, threshold: real)
    requires threshold > 0.0
    ensures IsPointOnPlane(planePoint, planeNormal, planePoint, threshold)
  {
  }

  /** `calculatePlaneNormal`: the normalised cross product of the two edges from the first
      of three points; null for fewer than three points or a zero cross product. */
  function CalculatePlaneNormal(sqrt: real -> real, pts: seq<Vec3>): (r: Option<Vec3>)
    requires IsSqrt(sqrt)
    ensures r.None? <==> |pts| < 3 || Cross(Sub(pts[1], pts[0]), Sub(pts[2], pts[0])) == Origin
    ensures r.Some? ==> Dot(r.value, Sub(pts[1], pts[0])) == 0.0
    ensures r.Some? ==> Dot(r.value, Sub(pts[2], pts[0])) == 0.0
    ensures r.Some? ==> SqNorm(r.value) == 1.0
  {
    if |pts| < 3 then None
    else
      var v1 := Sub(pts[1], pts[0]);
      var v2 := Sub(pts[2], pts[0]);
      var n := Cross(v1, v2);
      var length := sqrt(SqNorm(n));
      NormalFacts(sqrt, v1, v2);
      if length == 0.0 then None
      else Some(Vec3(n.x / length, n.y / length, n.z / length))
  }

  lemma NormalFacts(sqrt: real -> real, v1: Vec3, v2: Vec3)
    requires IsSqrt(sqrt)
    ensures var n := Cross(v1, v2);
      var length := sqrt(SqNorm(n));
      && (length == 0.0 <==> n == Origin)
      && (length != 0.0 ==> Dot(Vec3(n.x / length, n.y / length, n.z / length), v1) == 0.0)
      && (length != 0.0 ==> Dot(Vec3(n.x / length, n.y / length, n.z / length), v2) == 0.0)
      && (length != 0.0 ==> SqNorm(Vec3(n.x / length, n.y / length, n.z / length)) == 1.0)
  {
    var n := Cross(v1, v2);
    SqNormNonNegative(n);
    SqrtZero(sqrt, SqNorm(n));
    var length := sqrt(SqNorm(n));
    if length != 0.0 {
      var u := Vec3(n.x / length, n.y / length, n.z / length);
      CrossOrthogonal(v1, v2);
      assert u == Scale(n, 1.0 / length);
      DotScale(n, 1.0 / length, v1);
      DotScale(n, 1.0 / length, v2);
      SqNormScale(n, 1.0 / length);
      InverseSquare(length, SqNorm(n));
    }
  }

  lemma SqNormScale(v: Vec3, k: real)
    ensures SqNorm(Scale(v, k)) == Sq(k) * SqNorm(v)
  {
  }

  lemma InverseSquare(l: real, s: real)
    requires l != 0.0 && Sq(l) == s
    ensures Sq(1.0 / l) * s == 1.0
  {
  }

  /** `projectPointOntoPlane`: move the point along the normal by its signed offset. */
  function ProjectPointOntoPlane(point: Vec3, planeNormal: Vec3, planePoint: Vec3): Vec3 {
    var d := Dot(Sub(point, planePoint), planeNormal);
    Sub(point, Scale(planeNormal, d))
  }

  lemma OffsetAfterProjection(point: Vec3, n: Vec3, planePoint: Vec3)
    ensures Dot(Sub(ProjectPointOntoPlane(point, n, planePoint), planePoint), n)
         == Dot(Sub(point, planePoint), n) * (1.0 - SqNorm(n))
  {
  }

  /** With a unit normal the projected point's offset from the plane point is orthogonal
      to the normal. */
  lemma ProjectionLiesOnPlane(point: Vec3, n: Vec3, planePoint: Vec3)
    requires SqNorm(n) == 1.0
    ensures Dot(Sub(ProjectPointOntoPlane(point, n, planePoint), planePoint), n) == 0.0
  {
    OffsetAfterProjection(point, n, planePoint);
  }

  /** A point whose offset is already orthogonal to the normal is left where it is. */
  lemma ProjectionFixesPlanePoints(point: Vec3, n: Vec3, planePoint: Vec3)
    requires Dot(Sub(point, planePoint), n) == 0.0
    ensures ProjectPointOntoPlane(point, n, planePoint) == point
  {
  }

  /** With a unit normal, projecting twice is the same as projecting once. */
  lemma ProjectionIdempotent(point: Vec3, n: Vec3, planePoint: Vec3)
    requires SqNorm(n) == 1.0
    ensures var q := ProjectPointOntoPlane(point, n, planePoint);
      ProjectPointOntoPlane(q, n, planePoint) == q
  {
    ProjectionLiesOnPlane(point, n, planePoint);
    ProjectionFixesPlanePoints(ProjectPointOntoPlane(point, n, planePoint), n, planePoint);
  }

  /** The two plane helpers agree: a projected point passes `isPointOnPlane` for every
      positive threshold. */
  lemma ProjectedPointIsOnPlane(point: Vec3, n: Vec3, planePoint: Vec3, threshold: real)
    requires SqNorm(n) == 1.0 && threshold > 0.0
    ensures IsPointOnPlane(ProjectPointOntoPlane(point, n, planePoint), n, planePoint, threshold)
  {
    ProjectionLiesOnPlane(point, n, planePoint);
  }
}

=== FILE: native_correction.dfy ===
/** The native module's numeric rules: `applyProfessionalCorrections`, `getAccuracyEstimate`
    and `calculateConfidence` (ARMeasureModule.kt). */
module NativeCorrection {
  import opened Vectors

  /** Range correction on the raw distance: the first threshold that matches wins. */
  function RangeFactor(rawDistance: real): (f: real)
    ensures 0.98 <= f <= 1.03
    ensures f > 1.0 <==> rawDistance < 1.0
    ensures f < 1.0 <==> rawDistance >= 3.0
  {
    if rawDistance < 0.2 then 1.03
    else if rawDistance < 0.5 then 1.02
    else if rawDistance < 1.0 then 1.01
    else if rawDistance < 3.0 then 1.00
    else if rawDistance < 5.0 then 0.99
    else 0.98
  }

  /** Longer raw distances never get a larger range factor. */
  lemma RangeFactorNonIncreasing(a: real, b: real)
    requires a <= b
    ensures RangeFactor(b) <= RangeFactor(a)
  {
  }

  /** Correction by the average distance of the two points from the camera. The `> 5.0`
      branch sits after `> 3.0` and is never taken, so 0.98 is never returned. */
  function DepthFactor(avgDepth: real): (f: real)
    ensures f == 1.02 || f == 1.01 || f == 1.0 || f == 0.99
    ensures avgDepth > 3.0 ==> f == 0.99
    ensures 1.0 <= avgDepth <= 3.0 ==> f == 1.0
    ensures f > 1.0 <==> avgDepth < 1.0
  {
    if avgDepth < 0.5 then 1.02
    else if avgDepth < 1.0 then 1.01
    else if avgDepth > 3.0 then 0.99
    else if avgDepth > 5.0 then 0.98
    else 1.0
  }

  lemma DepthFactorNonIncreasing(a: real, b: real)
    requires a <= b
    ensures DepthFactor(b) <= DepthFactor(a)
  {
  }

  /** Smallest distance the corrector ever reports. */
  const MinDistance := 0.001

  lemma ProductBounds(d: real, f: real, g: real)
    requires d >= 0.0 && 0.98 <= f <= 1.03 && 0.99 <= g <= 1.02
    ensures d * 0.98 * 0.99 <= d * f * g <= d * 1.03 * 1.02
  {
    assert d * 0.98 <= d * f <= d * 1.03;
    assert d * 0.98 * 0.99 <= d * f * 0.99 <= d * f * g;
    assert d * f * g <= d * f * 1.02 <= d * 1.03 * 1.02;
  }

  lemma CorrectionBounds(rawDistance: real, avgDepth: real)
    ensures var c := rawDistance * RangeFactor(rawDistance) * DepthFactor(avgDepth);
      rawDistance >= 0.0 ==> rawDistance * 0.98 * 0.99 <= c <= rawDistance * 1.03 * 1.02
  {
    if rawDistance >= 0.0 {
      ProductBounds(rawDistance, RangeFactor(rawDistance), DepthFactor(avgDepth));
    }
  }

  /** `applyProfessionalCorrections`: the raw distance times the two factors, floored at
      1 mm. The result never drops below 1 mm and stays within the product of the two
      tables' extreme factors of the raw distance. */
  function ApplyProfessionalCorrections(rawDistance: real, avgDepth: real): (r: real)
    ensures r >= MinDistance
    ensures rawDistance >= 0.0 ==> r <= Max(rawDistance * 1.03 * 1.02, MinDistance)
    ensures rawDistance >= 0.0 ==> r >= rawDistance * 0.98 * 0.99
    ensures rawDistance * RangeFactor(rawDistance) * DepthFactor(avgDepth) >= MinDistance
            ==> r == rawDistance * RangeFactor(rawDistance) * DepthFactor(avgDepth)
    ensures rawDistance * RangeFactor(rawDistance) * DepthFactor(avgDepth) < MinDistance
            ==> r == MinDistance
  {
    var corrected := rawDistance * RangeFactor(rawDistance);
    var corrected' := corrected * DepthFactor(avgDepth);
    CorrectionBounds(rawDistance, avgDepth);
    Max(corrected', MinDistance)
  }

  /** The nine accuracy bands of `getAccuracyEstimate`. */
  const AccuracyLabels: set<string> := {"±1 mm", "±2 mm", "±3 mm", "±5 mm", "±7 mm", "±1 cm",
                                         "±1.5 cm", "±2 cm", "±3 cm"}

  /** `getAccuracyEstimate`: the distance band is chosen first; only below 1 m does the
      average camera depth pick between two labels. */
  function AccuracyEstimate(distance: real, avgDepth: real): (text: string)
    ensures text in AccuracyLabels
    ensures distance < 0.2 ==> text == "±1 mm" || text == "±2 mm"
    ensures text == "±1 mm" <==> distance < 0.2 && avgDepth < 0.5
    ensures distance >= 3.0 <==> text == "±3 cm"
  {
    if distance < 0.2 then (if avgDepth < 0.5 then "±1 mm" else "±2 mm")
    else if distance < 0.5 then (if avgDepth < 1.0 then "±3 mm" else "±5 mm")
    else if distance < 1.0 then (if avgDepth < 1.5 then "±7 mm" else "±1 cm")
    else if distance < 2.0 then "±1.5 cm"
    else if distance < 3.0 then "±2 cm"
    else "±3 cm"
  }

  /** From 1 m on the label does not depend on the camera depth. */
  lemma AccuracyIgnoresDepthBeyondOneMetre(distance: real, depth1: real, depth2: real)
    requires distance >= 1.0
    ensures AccuracyEstimate(distance, depth1) == AccuracyEstimate(distance, depth2)
  {
  }

  /** A millimetre band is only ever reported below 1 m. */
  lemma MillimetreBandsBelowOneMetre(distance: real, avgDepth: real)
    ensures var text := AccuracyEstimate(distance, avgDepth);
      text in {"±1 mm", "±2 mm", "±3 mm", "±5 mm", "±7 mm"} ==> distance < 1.0
  {
  }

  /** Confidence before clamping: base 0.8, +0.1 with depth data, +0.15 when both points are
      on planes, then +0.1 if both points are nearer than 1 m, else -0.1 if either is
      farther than 3 m. The score lies between 0.7 (no evidence, a far point) and 1.15 (all
      evidence, both points near), and only depth data, plane hits or near points lift it
      above the base. */
  function RawConfidence(depthAvailable: bool, bothOnPlanes: bool, depth1: real, depth2: real): (r: real)
    ensures 0.7 <= r <= 1.15
    ensures !depthAvailable && !bothOnPlanes ==> r <= 0.9
    ensures r > 0.8 ==> depthAvailable || bothOnPlanes || (depth1 < 1.0 && depth2 < 1.0)
  {
    var base := 0.8;
    var withDepth := if depthAvailable then base + 0.1 else base;
    var withPlanes := if bothOnPlanes then withDepth + 0.15 else withDepth;
    if depth1 < 1.0 && depth2 < 1.0 then withPlanes + 0.1
    else if depth1 > 3.0 || depth2 > 3.0 then withPlanes - 0.1
    else withPlanes
  }

  /** `calculateConfidence`, clamped into [0.5, 1.0]. The raw score is never below 0.7, so
      the lower clamp bound is never the result. */
  function CalculateConfidence(depthAvailable: bool, bothOnPlanes: bool, depth1: real, depth2: real)
    : (c: real)
    ensures 0.5 <= c <= 1.0
    ensures 0.7 <= c
    ensures !depthAvailable && !bothOnPlanes ==> c <= 0.9
    ensures depthAvailable && bothOnPlanes ==> c >= 0.95
  {
    var raw := RawConfidence(depthAvailable, bothOnPlanes, depth1, depth2);
    if raw < 0.5 then 0.5 else if raw > 1.0 then 1.0 else raw
  }

  /** More evidence never lowers the confidence. */
  lemma ConfidenceMonotone(d: bool, p: bool, d': bool, p': bool, depth1: real, depth2: real)
    requires (d ==> d') && (p ==> p')
    ensures CalculateConfidence(d, p, depth1, depth2) <= CalculateConfidence(d', p', depth1, depth2)
  {
  }
}

=== FILE: polylines.dfy ===
/** Segments of a polyline: the pairs of adjacent points. */
module Polylines {

  /** `pts.slice(1).map((p2, i) => [pts[i], p2])` in the scene, and the
      `for (i in 0 until size - 1)` pairs of the native measurement history. */
  function Segments<T>(pts: seq<T>): (r: seq<(T, T)>)
    ensures |r| == if |pts| == 0 then 0 else |pts| - 1
    ensures forall i :: 0 <= i < |r| ==> r[i] == (pts[i], pts[i + 1])
  {
    if |pts| < 2 then [] else [(pts[0], pts[1])] + Segments(pts[1..])
  }

  /** Adding a point to a non-empty polyline adds exactly one segment, from the old last point. */
  lemma {:induction false} SegmentsOfAppend<T>(pts: seq<T>, p: T)
    requires |pts| > 0
    ensures Segments(pts + [p]) == Segments(pts) + [(pts[|pts| - 1], p)]
  {
    if |pts| > 1 {
      assert (pts + [p])[1..] == pts[1..] + [p];
      SegmentsOfAppend(pts[1..], p);
    }
  }
}

=== FILE: results.dfy ===
/** Possibly absent values, shared by the measurement engine and the sensor modules. */
module Results {

  /** A value that may be absent, the model of a Kotlin `T?` or a TypeScript `T | null`. */
  datatype Option<+T> = None | Some(value: T)
}

=== FILE: sensor_bridge.dfy ===
/** The JavaScript side of the sensor module (SensorFusionModule.ts): the manager's activity
    flag and subscription, and the sanitiser that turns each raw event into three 3-vectors. */
module SensorBridge {
  import opened Results
  import opened Vectors
  import SensorNative

  /** `isActive` and whether `subscription` holds a listener. */
  datatype Manager = Manager(isActive: bool, subscribed: bool)

  const Fresh := Manager(false, false)

  const NotAvailableMessage := "SensorFusion not available on this platform"
  const AlreadyActiveMessage := "Sensors already active"
  const DefaultStartedMessage := "Sensors started successfully"

  /** How the native `startSensors` promise settles. */
  datatype NativeStart = Resolves(message: string) | Rejects(error: string)

  datatype StartResult = Resolved(message: string) | Thrown(error: string)

  datatype BridgeStep = BridgeStep(manager: Manager, result: StartResult, nativeCalled: bool)

  /** `startSensors`. `available` is `isAvailable()`; an empty native message is replaced by
      the default one. */
  function StartSensors(m: Manager, available: bool, native: NativeStart): (r: BridgeStep)
    ensures r.manager.subscribed == m.subscribed
    ensures !available ==> r == BridgeStep(m, Thrown(NotAvailableMessage), false)
    ensures available && m.isActive ==> r == BridgeStep(m, Resolved(AlreadyActiveMessage), false)
    ensures r.nativeCalled <==> available && !m.isActive
    ensures r.nativeCalled && native.Resolves? ==>
      && r.manager.isActive
      && r.result.Resolved? && r.result.message != ""
      && (native.message != "" ==> r.result.message == native.message)
    ensures r.nativeCalled && native == Resolves("") ==> r.result == Resolved(DefaultStartedMessage)
    ensures r.nativeCalled && native.Rejects? ==> r == BridgeStep(m, Thrown(native.error), true)
  {
    if !available then BridgeStep(m, Thrown(NotAvailableMessage), false)
    else if m.isActive then BridgeStep(m, Resolved(AlreadyActiveMessage), false)
    else
      match native
      case Resolves(message) =>
        BridgeStep(m.(isActive := true), Resolved(if message == "" then DefaultStartedMessage else message), true)
      case Rejects(error) => BridgeStep(m, Thrown(error), true)
  }

  /** `stopSensors`: a no-op unless available and active; a throwing native stop is logged
      and leaves the flag set. Returns the manager and whether the native stop was called. */
  function StopSensors(m: Manager, available: bool, nativeThrows: bool): (r: (Manager, bool))
    ensures r.0.subscribed == m.subscribed
    ensures r.1 <==> available && m.isActive
    ensures !r.1 ==> r.0 == m
    ensures r.1 && !nativeThrows ==> !r.0.isActive
    ensures nativeThrows ==> r.0 == m
  {
    if !available || !m.isActive then (m, false)
    else if nativeThrows then (m, true)
    else (m.(isActive := false), true)
  }

  /** Start then stop, with the native side succeeding, returns to an inactive manager. */
  lemma StartThenStop(m: Manager, message: string)
    requires !m.isActive
    ensures var started := StartSensors(m, true, Resolves(message)).manager;
      started.isActive && StopSensors(started, true, false).0 == m
  {
  }

  /** The function `setupEventListener` returns. */
  datatype Cleanup = NoCleanup | RemoveSubscription

  /** `setupEventListener`: registers a listener when available and the registration does
      not throw; otherwise hands back a cleanup that does nothing. */
  function SetupEventListener(m: Manager, available: bool, addThrows: bool): (r: (Manager, Cleanup))
    ensures r.0.isActive == m.isActive
    ensures r.1 == RemoveSubscription <==> available && !addThrows
    ensures r.1 == RemoveSubscription ==> r.0.subscribed
    ensures r.1 == NoCleanup ==> r.0 == m
  {
    if !available || addThrows then (m, NoCleanup) else (m.(subscribed := true), RemoveSubscription)
  }

  /** Running a cleanup; the removing one clears whatever subscription is current and
      reports whether there was one to remove. */
  function RunCleanup(m: Manager, c: Cleanup): (r: (Manager, bool))
    ensures r.0.isActive == m.isActive
    ensures r.1 <==> c == RemoveSubscription && m.subscribed
    ensures c == RemoveSubscription ==> !r.0.subscribed
    ensures c == NoCleanup ==> r.0 == m
  {
    match c
    case NoCleanup => (m, false)
    case RemoveSubscription => (m.(subscribed := false), m.subscribed)
  }

  /** A second call of the cleanup removes nothing and changes nothing. */
  lemma CleanupIdempotent(m: Manager, c: Cleanup)
    ensures var once := RunCleanup(m, c).0;
      RunCleanup(once, c) == (once, false)
  {
  }

  // ---- sanitising raw events ----

  /** A JavaScript number. */
  datatype JsNumber = Finite(value: real) | NaN | PositiveInfinity | NegativeInfinity

  /** Any JavaScript value as far as `typeof … === 'number'` can tell. */
  datatype JsValue = Number(n: JsNumber) | NotANumberType

  /** A vector field of the raw event: missing, or an array of values. */
  type RawVector = Option<seq<JsValue>>

  /** The raw event: `null`/`undefined`, or an object with three (possibly missing) fields. */
  datatype RawRecord = RawRecord(acceleration: RawVector, gyroscope: RawVector, magneticField: RawVector)
  type RawData = Option<RawRecord>

  datatype SensorData = SensorData(
    acceleration: seq<JsNumber>,
    gyroscope: seq<JsNumber>,
    magneticField: seq<JsNumber>,
    timestamp: real)

  /** `rawData?.field?.[i]` as a number, or 0 for anything that is not of type number. */
  function SlotValue(v: RawVector, i: nat): (n: JsNumber)
    ensures v.Some? && i < |v.value| && v.value[i].Number? ==> n == v.value[i].n
    ensures !(v.Some? && i < |v.value| && v.value[i].Number?) ==> n == Finite(0.0)
  {
    if v.Some? && i < |v.value| && v.value[i].Number? then v.value[i].n else Finite(0.0)
  }

  function Triple(v: RawVector): (t: seq<JsNumber>)
    ensures |t| == 3
    ensures forall i :: 0 <= i < 3 ==> t[i] == SlotValue(v, i)
  {
    [SlotValue(v, 0), SlotValue(v, 1), SlotValue(v, 2)]
  }

  function Field(raw: RawData, f: nat): RawVector
    requires f < 3
  {
    match raw
    case None => None
    case Some(r) => if f == 0 then r.acceleration else if f == 1 then r.gyroscope else r.magneticField
  }

  /** The listener's zero-fill: always three 3-element vectors; each slot is the raw value
      when it is of type number (NaN and infinities included), else 0. */
  function Sanitise(raw: RawData, now: real): (d: SensorData)
    ensures |d.acceleration| == 3 && |d.gyroscope| == 3 && |d.magneticField| == 3
    ensures d.timestamp == now
    ensures forall i :: 0 <= i < 3 ==>
      && d.acceleration[i] == SlotValue(Field(raw, 0), i)
      && d.gyroscope[i] == SlotValue(Field(raw, 1), i)
      && d.magneticField[i] == SlotValue(Field(raw, 2), i)
    ensures raw.None? ==> forall i :: 0 <= i < 3 ==> d.acceleration[i] == Finite(0.0)
  {
    SensorData(Triple(Field(raw, 0)), Triple(Field(raw, 1)), Triple(Field(raw, 2)), now)
  }

  /** Sanitised data sent through the bridge again. */
  function Reencode(d: SensorData): RawData {
    Some(RawRecord(Some(seq(|d.acceleration|, i requires 0 <= i < |d.acceleration| => Number(d.acceleration[i]))),
                   Some(seq(|d.gyroscope|, i requires 0 <= i < |d.gyroscope| => Number(d.gyroscope[i]))),
                   Some(seq(|d.magneticField|, i requires 0 <= i < |d.magneticField| => Number(d.magneticField[i])))))
  }

  /** Sanitising is idempotent: sanitised data passes through unchanged. */
  lemma SanitiseIdempotent(raw: RawData, now: real)
    ensures Sanitise(Reencode(Sanitise(raw, now)), now) == Sanitise(raw, now)
  {
    var d := Sanitise(raw, now);
    var d' := Sanitise(Reencode(d), now);
    assert d'.acceleration == d.acceleration;
    assert d'.gyroscope == d.gyroscope;
    assert d'.magneticField == d.magneticField;
  }

  /** The array the native side pushes for one stored vector. */
  function EncodeVector(v: Vec3): RawVector {
    Some([Number(Finite(v.x)), Number(Finite(v.y)), Number(Finite(v.z))])
  }

  function EncodePayload(p: SensorNative.Payload): RawData {
    Some(RawRecord(EncodeVector(p.acceleration), EncodeVector(p.gyroscope), EncodeVector(p.magneticField)))
  }

  function Coordinates(v: Vec3): seq<JsNumber> {
    [Finite(v.x), Finite(v.y), Finite(v.z)]
  }

  /** A payload emitted by the native module reaches the listener's callback with exactly
      the stored readings, stamped with the listener's own clock. */
  lemma NativePayloadSurvivesSanitising(p: SensorNative.Payload, now: real)
    ensures Sanitise(EncodePayload(p), now)
      == SensorData(Coordinates(p.acceleration), Coordinates(p.gyroscope), Coordinates(p.magneticField), now)
  {
    var d := Sanitise(EncodePayload(p), now);
    assert d.acceleration == Coordinates(p.acceleration);
    assert d.gyroscope == Coordinates(p.gyroscope);
    assert d.magneticField == Coordinates(p.magneticField);
  }
}

=== FILE: sensor_native.dfy ===
/** The native sensor module (SensorFusionModule.kt): the activity flag, the three stored
    3-vectors and the payload it emits. Sensor registration is an outcome per sensor slot. */
module SensorNative {
  import opened Results
  import opened Vectors

  /** `isActive` and the latest accelerometer, gyroscope and magnetometer readings. */
  datatype NativeSensors = NativeSensors(isActive: bool, accelerometer: Vec3, gyroscope: Vec3, magnetometer: Vec3)

  const Initial := NativeSensors(false, Origin, Origin, Origin)

  /** What happens to one sensor slot on start: no such sensor on the device, the manager
      refuses the listener, accepts it, or throws. */
  datatype Registration = Absent | Refused | Registered | Throws

  datatype StartReply =
    | AlreadyActive
    | Started(sensorsActive: nat)
    | FailedToRegister
    | StartFailed

  /** Registration of the slots in order; a throw abandons the remaining slots. */
  datatype RegisterOutcome = RegisterOutcome(registered: nat, attempts: nat, threw: bool)

  function RegisterAll(slots: seq<Registration>): (o: RegisterOutcome)
    ensures o.threw <==> Throws in multiset(slots)
    ensures o.registered <= o.attempts <= |slots|
    ensures !o.threw ==>
      && o.registered == multiset(slots)[Registered]
      && o.attempts == |slots| - multiset(slots)[Absent]
  {
    if |slots| == 0 then RegisterOutcome(0, 0, false)
    else
      assert slots == [slots[0]] + slots[1..];
      match slots[0]
      case Throws => RegisterOutcome(0, 1, true)
      case Absent => RegisterAll(slots[1..])
      case Refused =>
        var rest := RegisterAll(slots[1..]);
        rest.(attempts := rest.attempts + 1)
      case Registered =>
        var rest := RegisterAll(slots[1..]);
        rest.(registered := rest.registered + 1, attempts := rest.attempts + 1)
  }

  datatype StartOutcome = StartOutcome(state: NativeSensors, reply: StartReply, attempts: nat)

  /** `startSensors`, with the accelerometer, gyroscope and magnetometer slots in that order. */
  function StartSensors(s: NativeSensors, slots: seq<Registration>): (r: StartOutcome)
    ensures r.state == s.(isActive := r.state.isActive)
    ensures s.isActive ==> r.reply == AlreadyActive && r.attempts == 0 && r.state == s
    ensures !s.isActive ==>
      && (r.state.isActive <==> Throws !in multiset(slots) && multiset(slots)[Registered] > 0)
      && (r.reply == StartFailed <==> Throws in multiset(slots))
      && (r.reply == FailedToRegister <==> Throws !in multiset(slots) && multiset(slots)[Registered] == 0)
    ensures r.reply.Started? ==> r.state.isActive && r.reply.sensorsActive == multiset(slots)[Registered] > 0
    ensures r.attempts <= |slots|
  {
    if s.isActive then StartOutcome(s, AlreadyActive, 0)
    else
      var o := RegisterAll(slots);
      if o.threw then StartOutcome(s, StartFailed, o.attempts)
      else if o.registered > 0 then StartOutcome(s.(isActive := true), Started(o.registered), o.attempts)
      else StartOutcome(s, FailedToRegister, o.attempts)
  }

  /** Starting twice registers nothing the second time. */
  lemma StartTwiceRegistersOnce(s: NativeSensors, slots: seq<Registration>, again: seq<Registration>)
    requires StartSensors(s, slots).state.isActive
    ensures var r := StartSensors(StartSensors(s, slots).state, again);
      r.reply == AlreadyActive && r.attempts == 0 && r.state == StartSensors(s, slots).state
  {
  }

  /** `stopSensors`: a throwing unregister is swallowed and leaves the flag alone. */
  function StopSensors(s: NativeSensors, unregisterThrows: bool): (r: NativeSensors)
    ensures r == s.(isActive := r.isActive)
    ensures !unregisterThrows ==> !r.isActive
    ensures unregisterThrows ==> r == s
  {
    if unregisterThrows then s else s.(isActive := false)
  }

  datatype SensorKind = Accelerometer | Gyroscope | MagneticField | OtherSensor

  datatype SensorEvent = SensorEvent(kind: SensorKind, values: seq<real>)

  /** The `onSensorData` map: three 3-vectors and a timestamp. */
  datatype Payload = Payload(acceleration: Vec3, gyroscope: Vec3, magneticField: Vec3, timestamp: real)

  /** The stored vector of a sensor kind (`None` for kinds the module ignores). */
  function Stored(s: NativeSensors, kind: SensorKind): Option<Vec3> {
    match kind
    case Accelerometer => Some(s.accelerometer)
    case Gyroscope => Some(s.gyroscope)
    case MagneticField => Some(s.magnetometer)
    case OtherSensor => None
  }

  function Store(s: NativeSensors, kind: SensorKind, v: Vec3): (r: NativeSensors)
    ensures r.isActive == s.isActive
    ensures forall k :: k != kind ==> Stored(r, k) == Stored(s, k)
    ensures kind != OtherSensor ==> Stored(r, kind) == Some(v)
  {
    match kind
    case Accelerometer => s.(accelerometer := v)
    case Gyroscope => s.(gyroscope := v)
    case MagneticField => s.(magnetometer := v)
    case OtherSensor => s
  }

  /** The element-by-element copy into a stored vector: the first `min(3, |values|)`
      coordinates are overwritten before a short array stops the copy. */
  function CopyPrefix(v: Vec3, values: seq<real>): (r: Vec3)
    ensures |values| >= 3 ==> r == Vec3(values[0], values[1], values[2])
    ensures |values| == 0 ==> r == v
    ensures |values| > 0 ==> r.x == values[0]
    ensures r.z == (if |values| >= 3 then values[2] else v.z)
    ensures r.y == (if |values| >= 2 then values[1] else v.y)
  {
    if |values| == 0 then v
    else if |values| == 1 then v.(x := values[0])
    else if |values| == 2 then v.(x := values[0], y := values[1])
    else Vec3(values[0], values[1], values[2])
  }

  /** `processSensorData`: nothing while inactive, else exactly the stored readings. */
  function ProcessSensorData(s: NativeSensors, now: real): (p: Option<Payload>)
    ensures p.None? <==> !s.isActive
    ensures p.Some? ==>
      && Some(p.value.acceleration) == Stored(s, Accelerometer)
      && Some(p.value.gyroscope) == Stored(s, Gyroscope)
      && Some(p.value.magneticField) == Stored(s, MagneticField)
      && p.value.timestamp == now
  {
    if !s.isActive then None
    else Some(Payload(s.accelerometer, s.gyroscope, s.magnetometer, now))
  }

  /** `onSensorChanged`: a reading overwrites only its own kind's vector, then the readings
      are emitted. A reading with fewer than three values throws during the copy, so it is
      only partly stored and nothing is emitted. */
  function OnSensorChanged(s: NativeSensors, event: Option<SensorEvent>, now: real): (r: (NativeSensors, Option<Payload>))
    ensures r.0.isActive == s.isActive
    ensures event.None? ==> r.0 == s && r.1.None?
    ensures event.Some? ==> forall k :: k != event.value.kind ==> Stored(r.0, k) == Stored(s, k)
    ensures event.Some? && event.value.kind != OtherSensor && |event.value.values| >= 3 ==>
      var vs := event.value.values;
      Stored(r.0, event.value.kind) == Some(Vec3(vs[0], vs[1], vs[2]))
    ensures r.1.Some? ==> r.1 == ProcessSensorData(r.0, now)
    ensures r.1.None? <==>
      || !s.isActive || event.None?
      || (event.value.kind != OtherSensor && |event.value.values| < 3)
  {
    match event
    case None => (s, None)
    case Some(e) =>
      match Stored(s, e.kind)
      case None => (s, ProcessSensorData(s, now))
      case Some(v) =>
        var s' := Store(s, e.kind, CopyPrefix(v, e.values));
        if |e.values| < 3 then (s', None) else (s', ProcessSensorData(s', now))
  }

  /** Delivering the same complete reading twice stores and emits what one delivery does. */
  lemma SensorEventIdempotent(s: NativeSensors, e: SensorEvent, now: real)
    requires |e.values| >= 3
    ensures var once := OnSensorChanged(s, Some(e), now);
      OnSensorChanged(once.0, Some(e), now) == once
  {
  }
}

=== FILE: sorted_samples.dfy ===
/** Sorting and the median pick of the depth sampler: `samples.sorted()[samples.size / 2]`. */
module SortedSamples {

  ghost predicate Sorted(s: seq<real>) {
    forall i, j :: 0 <= i < j < |s| ==> s[i] <= s[j]
  }

  /** Number of elements strictly below v. */
  function CountBelow(s: seq<real>, v: real): nat {
    if |s| == 0 then 0 else (if s[0] < v then 1 else 0) + CountBelow(s[1..], v)
  }

  /** Number of elements at most v. */
  function CountAtMost(s: seq<real>, v: real): nat {
    if |s| == 0 then 0 else (if s[0] <= v then 1 else 0) + CountAtMost(s[1..], v)
  }

  /** Insert x into a sorted sequence before the first element not below it. */
  function Insert(x: real, s: seq<real>): (r: seq<real>)
    requires Sorted(s)
    ensures Sorted(r)
    ensures multiset(r) == multiset(s) + multiset{x}
    ensures |r| == |s| + 1 && (r[0] == x || (|s| > 0 && r[0] == s[0]))
  {
    if |s| == 0 then [x]
    else if x <= s[0] then [x] + s
    else
      var rest := Insert(x, s[1..]);
      assert s == [s[0]] + s[1..];
      assert |s| > 1 ==> s[0] <= s[1];
      PrependSorted(s[0], rest);
      [s[0]] + rest
  }

  lemma PrependSorted(a: real, s: seq<real>)
    requires Sorted(s) && (|s| > 0 ==> a <= s[0])
    ensures Sorted([a] + s)
  {
    var t := [a] + s;
    forall i, j | 0 <= i < j < |t|
      ensures t[i] <= t[j]
    {
      if i == 0 && j > 1 {
        assert s[0] <= s[j - 1];
      }
    }
  }

  /** Insertion sort, ascending: a sorted permutation of its input. */
  function Sort(s: seq<real>): (r: seq<real>)
    ensures Sorted(r)
    ensures multiset(r) == multiset(s)
    ensures |r| == |s|
  {
    if |s| == 0 then []
    else
      assert s == [s[0]] + s[1..];
      Insert(s[0], Sort(s[1..]))
  }

  lemma {:induction false} CountsOfInsert(x: real, s: seq<real>, v: real)
    requires Sorted(s)
    ensures CountBelow(Insert(x, s), v) == CountBelow(s, v) + (if x < v then 1 else 0)
    ensures CountAtMost(Insert(x, s), v) == CountAtMost(s, v) + (if x <= v then 1 else 0)
  {
    if |s| > 0 && x > s[0] {
      CountsOfInsert(x, s[1..], v);
      var r := Insert(x, s);
      assert r[1..] == Insert(x, s[1..]);
    } else if |s| > 0 {
      var r := Insert(x, s);
      assert r[1..] == s;
    }
  }

  /** Sorting does not change how many elements lie below or at most a value. */
  lemma {:induction false} CountsOfSort(s: seq<real>, v: real)
    ensures CountBelow(Sort(s), v) == CountBelow(s, v)
    ensures CountAtMost(Sort(s), v) == CountAtMost(s, v)
  {
    if |s| > 0 {
      CountsOfSort(s[1..], v);
      CountsOfInsert(s[0], Sort(s[1..]), v);
    }
  }

  /** In a sorted sequence, at most k elements lie below the element at index k, and at
      least k + 1 are at most it. */
  lemma {:induction false} CountsAtIndex(t: seq<real>, k: nat)
    requires Sorted(t) && k < |t|
    ensures CountBelow(t, t[k]) <= k
    ensures CountAtMost(t, t[k]) >= k + 1
  {
    if k == 0 {
      NoneBelowMinimum(t, t[0]);
    } else {
      assert t[1..][k - 1] == t[k];
      CountsAtIndex(t[1..], k - 1);
    }
  }

  lemma {:induction false} NoneBelowMinimum(t: seq<real>, v: real)
    requires forall i :: 0 <= i < |t| ==> v <= t[i]
    ensures CountBelow(t, v) == 0
  {
    if |t| > 0 {
      NoneBelowMinimum(t[1..], v);
    }
  }

  /** The Kotlin median pick: the element at index size/2 of the sorted samples (for an
      even count, the upper of the two middle values). */
  function Median(s: seq<real>): (m: real)
    requires |s| > 0
    ensures m in s
    ensures CountBelow(s, m) <= |s| / 2
    ensures CountAtMost(s, m) > |s| / 2
  {
    var t := Sort(s);
    assert |t| == |multiset(t)| == |multiset(s)| == |s|;
    assert t[|s| / 2] in multiset(s);
    CountsAtIndex(t, |s| / 2);
    CountsOfSort(s, t[|s| / 2]);
    t[|s| / 2]
  }

  lemma {:induction false} CountMonotone(s: seq<real>, v: real, w: real)
    requires v < w
    ensures CountAtMost(s, v) <= CountBelow(s, w)
  {
    if |s| > 0 {
      CountMonotone(s[1..], v, w);
    }
  }

  /** The two counting conditions pin the median down: any value meeting them is the
      element the Kotlin code picks. */
  lemma MedianUnique(s: seq<real>, v: real)
    requires |s| > 0
    requires CountBelow(s, v) <= |s| / 2 && CountAtMost(s, v) > |s| / 2
    ensures v == Median(s)
  {
    var m := Median(s);
    if v < m {
      CountMonotone(s, v, m);
    } else if m < v {
      CountMonotone(s, m, v);
    }
  }

  /** For an odd number of samples this is the exact middle value of the sorted samples. */
  lemma MedianOfOdd(s: seq<real>)
    requires |s| % 2 == 1
    ensures Median(s) == Sort(s)[(|s| - 1) / 2]
  {
    var n := |s|;
    var h := n / 2;
    assert n == 2 * h + 1;
    assert (n - 1) / 2 == h;
  }
}

=== FILE: surface_locator.dfy ===
/** `getWorldPosition` of the native module: resolve a screen tap to a world position by
    an accepted hit-test result, else the depth image, else a raycast at a fixed depth. */
module SurfaceLocator {
  import opened Results
  import opened Vectors
  import opened DepthSampler

  datatype TrackingState = Tracking | Paused | Stopped

  /** The trackable a hit landed on. For a plane, `poseInPolygon` is the answer of
      `isPoseInPolygon` for this hit's pose. */
  datatype Trackable =
    | Plane(planeState: TrackingState, poseInPolygon: bool)
    | InstantPlacementPoint(pointState: TrackingState)
    | OtherTrackable

  /** One hit-test result: the trackable and the translation of the hit pose. */
  datatype Hit = Hit(trackable: Trackable, pose: Vec3)

  /** The camera pose as the opaque `Matrix.multiplyMV(poseMatrix, (v, w))`: a camera-space
      vector with homogeneous coordinate w (1 for points, 0 for directions) to world space. */
  datatype Pose = Pose(transform: (Vec3, real) -> Vec3) {
    /** `pose.tx(), ty(), tz()`: the image of the camera-space origin. */
    function Translation(): Vec3 {
      transform(Origin, 1.0)
    }

    /** An affine pose matrix: a point (w = 1) lands at the translation plus the image of
        the same vector taken as a direction (w = 0). */
    ghost predicate Affine() {
      forall v: Vec3 :: transform(v, 1.0) == Add(Translation(), transform(v, 0.0))
    }
  }

  /** `intrinsics[0]`, `[4]`, `[2]`, `[5]`: focal lengths and principal point. */
  datatype Intrinsics = Intrinsics(fx: real, fy: real, cx: real, cy: real)

  /** What the locator reads from the current ARCore frame. `depthImage` is None when
      `acquireDepthImage16Bits` gives nothing or throws; `raycastFails` stands for the
      exception that makes the raycast fallback return null. */
  datatype Frame = Frame(
    hitTest: (real, real) -> seq<Hit>,
    depthImage: Option<DepthImage>,
    intrinsics: Intrinsics,
    cameraPose: Pose,
    raycastFails: bool)
  {
    predicate Valid() {
      intrinsics.fx != 0.0 && intrinsics.fy != 0.0
      && (depthImage.Some? ==> depthImage.value.Valid())
    }
  }

  /** Screen coordinates of a tap inside a view of the given size. */
  predicate ValidTap(screenX: real, screenY: real, viewWidth: int, viewHeight: int) {
    screenX >= 0.0 && screenY >= 0.0 && viewWidth > 0 && viewHeight > 0
  }

  /** The `firstOrNull` filter: a plane hit needs TRACKING and the pose inside the polygon,
      an instant-placement point needs TRACKING, anything else is refused. */
  predicate Accepts(h: Hit) {
    match h.trackable
    case Plane(state, inPolygon) => inPolygon && state == Tracking
    case InstantPlacementPoint(state) => state == Tracking
    case OtherTrackable => false
  }

  /** Index of the first accepted hit, or |hits| when there is none. */
  function FirstAcceptedIndex(hits: seq<Hit>): (k: nat)
    ensures k <= |hits|
    ensures k < |hits| ==> Accepts(hits[k])
    ensures forall j :: 0 <= j < k ==> !Accepts(hits[j])
  {
    if |hits| == 0 then 0
    else if Accepts(hits[0]) then 0
    else 1 + FirstAcceptedIndex(hits[1..])
  }

  /** `bestHit`'s pose translation, if any hit is accepted. */
  function BestHit(hits: seq<Hit>): (r: Option<Vec3>)
    ensures r.None? <==> forall j :: 0 <= j < |hits| ==> !Accepts(hits[j])
    ensures forall i :: (0 <= i < |hits| && Accepts(hits[i]) && forall j :: 0 <= j < i ==> !Accepts(hits[j]))
                        ==> r == Some(hits[i].pose)
  {
    var k := FirstAcceptedIndex(hits);
    if k < |hits| then Some(hits[k].pose) else None
  }

  /** Pinhole back-projection of a depth pixel; the camera looks down -Z. */
  function BackProject(px: real, py: real, depth: real, intr: Intrinsics): Vec3
    requires intr.fx != 0.0 && intr.fy != 0.0
  {
    Vec3((px - intr.cx) * depth / intr.fx, (py - intr.cy) * depth / intr.fy, -depth)
  }

  /** Every back-projected point of a pixel lies on that pixel's camera ray, at the given
      distance along -Z. */
  lemma BackProjectOnRay(px: real, py: real, depth: real, intr: Intrinsics)
    requires intr.fx != 0.0 && intr.fy != 0.0
    ensures BackProject(px, py, depth, intr) == Scale(BackProject(px, py, 1.0, intr), depth)
  {
  }

  /** `getPositionFromDepth`: the median depth around the tap, back-projected and moved to
      world space; None when the pixel is off the image or no reading is plausible. */
  function PositionFromDepth(frame: Frame, img: DepthImage, screenX: real, screenY: real,
                             viewWidth: int, viewHeight: int): (r: Option<Vec3>)
    requires frame.Valid() && img.Valid() && ValidTap(screenX, screenY, viewWidth, viewHeight)
    ensures r.Some? <==> var pixel := DepthPixel(screenX, screenY, viewWidth, viewHeight, img);
                         pixel.Some? && DepthAt(img, pixel.value.0, pixel.value.1).Some?
    ensures r.Some? ==> var pixel := DepthPixel(screenX, screenY, viewWidth, viewHeight, img).value;
                        var d := DepthAt(img, pixel.0, pixel.1).value;
                        IsValidDepth(d)
                        && r.value == frame.cameraPose.transform(
                             BackProject(pixel.0 as real, pixel.1 as real, d, frame.intrinsics), 1.0)
  {
    match DepthPixel(screenX, screenY, viewWidth, viewHeight, img)
    case None => None
    case Some((depthX, depthY)) =>
      match DepthAt(img, depthX, depthY)
      case None => None
      case Some(medianDepth) =>
        var cameraPoint := BackProject(depthX as real, depthY as real, medianDepth, frame.intrinsics);
        Some(frame.cameraPose.transform(cameraPoint, 1.0))
  }

  /** Normalised device x coordinate of a tap. */
  function NdcX(screenX: real, viewWidth: int): real
    requires viewWidth > 0
  {
    (screenX / viewWidth as real) * 2.0 - 1.0
  }

  /** Normalised device y coordinate of a tap; screen y grows downwards, NDC y upwards. */
  function NdcY(screenY: real, viewHeight: int): real
    requires viewHeight > 0
  {
    -((screenY / viewHeight as real) * 2.0 - 1.0)
  }

  /** Taps inside the view map into [-1, 1]; the left and top edges map to -1 and +1. */
  lemma NdcRange(screenX: real, screenY: real, viewWidth: int, viewHeight: int)
    requires 0.0 <= screenX <= viewWidth as real && 0.0 <= screenY <= viewHeight as real
    requires viewWidth > 0 && viewHeight > 0
    ensures -1.0 <= NdcX(screenX, viewWidth) <= 1.0
    ensures -1.0 <= NdcY(screenY, viewHeight) <= 1.0
    ensures screenX == 0.0 ==> NdcX(screenX, viewWidth) == -1.0
    ensures screenY == 0.0 ==> NdcY(screenY, viewHeight) == 1.0
  {
    var fx := screenX / viewWidth as real;
    var fy := screenY / viewHeight as real;
    assert 0.0 <= fx <= 1.0;
    assert 0.0 <= fy <= 1.0;
  }

  /** The fixed depth the raycast fallback assumes. */
  const EstimatedDepth := 1.0

  /** `getRaycastPosition`: camera origin plus the world-space ray direction through the
      tap, scaled by the assumed depth. */
  function RaycastPosition(frame: Frame, screenX: real, screenY: real, viewWidth: int, viewHeight: int)
    : (r: Option<Vec3>)
    requires viewWidth > 0 && viewHeight > 0
    ensures r.None? <==> frame.raycastFails
    ensures r.Some? ==> r.value == Add(frame.cameraPose.Translation(),
      frame.cameraPose.transform(Vec3(NdcX(screenX, viewWidth), NdcY(screenY, viewHeight), -1.0), 0.0))
  {
    if frame.raycastFails then None
    else
      var worldOrigin := frame.cameraPose.transform(Vec3(0.0, 0.0, 0.0), 1.0);
      var direction := Vec3(NdcX(screenX, viewWidth), NdcY(screenY, viewHeight), -1.0);
      var worldDirection := frame.cameraPose.transform(direction, 0.0);
      Some(Add(worldOrigin, Scale(worldDirection, EstimatedDepth)))
  }

  /** Under an affine pose the raycast fallback lands on the camera-space point at the assumed
      depth, one metre down the viewing axis, mapped to world space. */
  lemma RaycastIsPointAtEstimatedDepth(frame: Frame, screenX: real, screenY: real,
                                       viewWidth: int, viewHeight: int)
    requires viewWidth > 0 && viewHeight > 0
    requires frame.cameraPose.Affine() && !frame.raycastFails
    ensures RaycastPosition(frame, screenX, screenY, viewWidth, viewHeight)
            == Some(frame.cameraPose.transform(
                 Vec3(NdcX(screenX, viewWidth), NdcY(screenY, viewHeight), -EstimatedDepth), 1.0))
  {
    var v := Vec3(NdcX(screenX, viewWidth), NdcY(screenY, viewHeight), -EstimatedDepth);
    assert frame.cameraPose.transform(v, 1.0)
           == Add(frame.cameraPose.Translation(), frame.cameraPose.transform(v, 0.0));
  }

  /** The depth fallback, None when there is no depth image. */
  function DepthFallback(frame: Frame, screenX: real, screenY: real, viewWidth: int, viewHeight: int)
    : Option<Vec3>
    requires frame.Valid() && ValidTap(screenX, screenY, viewWidth, viewHeight)
  {
    match frame.depthImage
    case None => None
    case Some(img) => PositionFromDepth(frame, img, screenX, screenY, viewWidth, viewHeight)
  }

  /** `getWorldPosition`: the first accepted hit wins whatever depth or raycast would give;
      depth is tried before the raycast; None only when every strategy failed. */
  function GetWorldPosition(frame: Frame, screenX: real, screenY: real, viewWidth: int, viewHeight: int)
    : (r: Option<Vec3>)
    requires frame.Valid() && ValidTap(screenX, screenY, viewWidth, viewHeight)
    ensures var hits := frame.hitTest(screenX, screenY);
      forall i :: (0 <= i < |hits| && Accepts(hits[i]) && forall j :: 0 <= j < i ==> !Accepts(hits[j]))
        ==> r == Some(hits[i].pose)
    ensures var hits := frame.hitTest(screenX, screenY);
      (forall j :: 0 <= j < |hits| ==> !Accepts(hits[j]))
        ==> r == (var depth := DepthFallback(frame, screenX, screenY, viewWidth, viewHeight);
                  if depth.Some? then depth
                  else RaycastPosition(frame, screenX, screenY, viewWidth, viewHeight))
    ensures r.None? <==> BestHit(frame.hitTest(screenX, screenY)).None?
                         && DepthFallback(frame, screenX, screenY, viewWidth, viewHeight).None?
                         && frame.raycastFails
  {
    match BestHit(frame.hitTest(screenX, screenY))
    case Some(p) => Some(p)
    case None =>
      match DepthFallback(frame, screenX, screenY, viewWidth, viewHeight)
      case Some(p) => Some(p)
      case None => RaycastPosition(frame, screenX, screenY, viewWidth, viewHeight)
  }
}

=== FILE: vectors.dfy ===
/** Three-dimensional points and vectors in world space (metres), the `FloatArray(3)`
    of the native module and the `[number, number, number]` of the scene. */
module Vectors {

  datatype Vec3 = Vec3(x: real, y: real, z: real)

  const Origin := Vec3(0.0, 0.0, 0.0)

  function Add(a: Vec3, b: Vec3): Vec3 {
    Vec3(a.x + b.x, a.y + b.y, a.z + b.z)
  }

  /** a - b */
  function Sub(a: Vec3, b: Vec3): Vec3 {
    Vec3(a.x - b.x, a.y - b.y, a.z - b.z)
  }

  function Scale(v: Vec3, k: real): Vec3 {
    Vec3(v.x * k, v.y * k, v.z * k)
  }

  function Dot(a: Vec3, b: Vec3): real {
    a.x * b.x + a.y * b.y + a.z * b.z
  }

  function Cross(a: Vec3, b: Vec3): Vec3 {
    Vec3(a.y * b.z - a.z * b.y, a.z * b.x - a.x * b.z, a.x * b.y - a.y * b.x)
  }

  function Sq(a: real): real {
    a * a
  }

  /** Squared length, x*x + y*y + z*z. */
  function SqNorm(v: Vec3): real {
    Sq(v.x) + Sq(v.y) + Sq(v.z)
  }

  function Abs(r: real): real {
    if r < 0.0 then -r else r
  }

  function Max(a: real, b: real): real {
    if a < b then b else a
  }

  /** The platform square root (`Math.sqrt`, `kotlin.math.sqrt`) is not computed by the model;
      every member that needs it takes it as a parameter and relies only on this property. */
  ghost predicate IsSqrt(sqrt: real -> real) {
    forall x :: 0.0 <= x ==> 0.0 <= sqrt(x) && Sq(sqrt(x)) == x
  }

  lemma SquarePositive(a: real)
    requires a != 0.0
    ensures Sq(a) > 0.0
  {
    if a > 0.0 {
      calc {
        Sq(a);
        a * a;
      > { assert a * a > 0.0; }
        0.0;
      }
    } else {
      calc {
        Sq(a);
        (-a) * (-a);
      > { assert (-a) * (-a) > 0.0; }
        0.0;
      }
    }
  }

  lemma SquareNonNegative(a: real)
    ensures Sq(a) >= 0.0
  {
    if a != 0.0 {
      SquarePositive(a);
    }
  }

  lemma SqNormNonNegative(v: Vec3)
    ensures SqNorm(v) >= 0.0
    ensures SqNorm(v) == 0.0 <==> v == Origin
  {
    SquareNonNegative(v.x);
    SquareNonNegative(v.y);
    SquareNonNegative(v.z);
    if v.x != 0.0 {
      SquarePositive(v.x);
    } else if v.y != 0.0 {
      SquarePositive(v.y);
    } else if v.z != 0.0 {
      SquarePositive(v.z);
    }
  }

  lemma SqrtZero(sqrt: real -> real, x: real)
    requires IsSqrt(sqrt) && 0.0 <= x
    ensures 0.0 <= sqrt(x)
    ensures sqrt(x) == 0.0 <==> x == 0.0
  {
    if sqrt(x) != 0.0 {
      SquarePositive(sqrt(x));
    }
  }

  /** Euclidean distance between two points (`calculateDistance`, and the raw distance of
      `calculatePreciseDistance`). */
  function Distance(sqrt: real -> real, a: Vec3, b: Vec3): (r: real)
    requires IsSqrt(sqrt)
    ensures 0.0 <= r && Sq(r) == SqNorm(Sub(b, a))
    ensures r == 0.0 <==> a == b
  {
    DistanceFacts(sqrt, a, b);
    sqrt(SqNorm(Sub(b, a)))
  }

  lemma DistanceFacts(sqrt: real -> real, a: Vec3, b: Vec3)
    requires IsSqrt(sqrt)
    ensures 0.0 <= sqrt(SqNorm(Sub(b, a)))
    ensures Sq(sqrt(SqNorm(Sub(b, a)))) == SqNorm(Sub(b, a))
    ensures sqrt(SqNorm(Sub(b, a))) == 0.0 <==> a == b
  {
    SqNormNonNegative(Sub(b, a));
    SqrtZero(sqrt, SqNorm(Sub(b, a)));
    SubZero(a, b);
  }

  lemma SubZero(a: Vec3, b: Vec3)
    ensures Sub(b, a) == Origin <==> a == b
  {
  }

  lemma DistanceSymmetric(sqrt: real -> real, a: Vec3, b: Vec3)
    requires IsSqrt(sqrt)
    ensures Distance(sqrt, a, b) == Distance(sqrt, b, a)
  {
    assert SqNorm(Sub(b, a)) == SqNorm(Sub(a, b));
  }

  lemma DistanceToSelf(sqrt: real -> real, p: Vec3)
    requires IsSqrt(sqrt)
    ensures Distance(sqrt, p, p) == 0.0
  {
  }

  lemma CrossOrthogonal(a: Vec3, b: Vec3)
    ensures Dot(Cross(a, b), a) == 0.0
    ensures Dot(Cross(a, b), b) == 0.0
  {
  }

  lemma DotScale(v: Vec3, k: real, w: Vec3)
    ensures Dot(Scale(v, k), w) == k * Dot(v, w)
  {
  }
}
